=== FILE: README.md ===
# components-how-to, modelled in Dafny

A model of a small JavaScript component library and the demo application
that ships with it. The Dafny proves what each operation does to the
component tree and to the DOM nodes underneath it.

- A **component** wraps one DOM element. It keeps an ordered list of child
  components. It can append children, forward attribute, class, text and
  listener changes to its element, and destroy itself and its subtree.
- A **Button** and a **Link** register an optional click callback when
  they are built. They unregister it when destroyed.
- A **MenuItem** is an `li` holding one Link. It is *active* exactly when
  its element has the class `menu__item--active`.
- A **Menu** is a `nav` of MenuItems. Its `toggleActiveItem` walks the
  children and leaves the target as the one active item.
- **`createElement`** is a factory. It builds an element with defaults,
  adds classes with `classList.add` and appends the element to a parent
  when one is given.
- The **demo application** builds a menu of three items. A click on an
  item's link toggles that item.

The model has three modules:

- `Wrappers` (wrappers.dfy): the `Option` and `Result` types. A missing
  option is `None`. An exception the platform throws is a `Failure`.
- `Dom` (dom.dfy): an abstract element, `class Node`. It has a tag, a
  class set, attributes, text, a parent, the ordered element children
  (`kids`) and a listener set. Its mutations follow the DOM Standard:
  - the `className` and `textContent` setters;
  - `classList.add` and `classList.toggle`, with their token errors
    (section 7.1, DOMTokenList);
  - `append`, which moves a node away from its old parent (section 4.2.3);
  - `remove`;
  - `setAttribute` and `removeAttribute`, which store the name in ASCII
    lowercase (section 4.9, Element);
  - event listener registration, matched on type, callback and capture
    (section 2.7).

  `createElement` is also here.
- `Components` (components.dfy): the component classes.
  - JavaScript's subclasses become one `class Component` with a `Role`
    (`Plain`, `ButtonRole`, `LinkRole`, `MenuItemRole`, `MenuRole`).
    Each subclass constructor is a named constructor. `destroy`
    dispatches on the role, as the overriding methods do.
  - A ghost ownership tree (`Repr`, `Nodes`, `Valid()`) gives the
    recursion in `destroy` a termination measure. It also keeps the
    subtrees of distinct children disjoint.
  - `destroy` is specified on values. `AfterDestroy(st, gone)` maps the
    state of every node (its properties, its parent, its kids) to the
    state it has once the components `gone` are destroyed. The node of a
    destroyed component loses its parent and the click listener that
    component registered. Every node loses from its kids the destroyed
    nodes it was the parent of. `Cleared(cl, gone)` does the same for the
    components' children lists, which become empty for the destroyed
    ones. `Destroy` states that the nodes it may touch end up as
    `AfterDestroy` of their old states, where `gone` is the component and
    all its descendants. These are the nodes of the subtree and their
    parents outside it.
  - `class App` models the demo application.

Callbacks are closures in JavaScript. Here they are integer ids: a Link's
click callback in the demo has the id of its item's position, and `App.Click(id)`
runs the callback with that id.

The component class exists twice in the source. The copy at the top of
examples/index.js defaults its options with `??`, so both `undefined` and
`null` take the default. The copy in src/base-component.js defaults only
`undefined`. Options are `Option` values here, so the two copies agree
and `None` stands for a missing option.

## Model

| member | source | states |
|---|---|---|
| Dom.TokenError | src/base-component.js:102-104 | `toggle` rejects exactly the malformed tokens. The empty token gives a SyntaxError; a token with ASCII whitespace gives an InvalidCharacterError. |
| Dom.FirstTokenError | src/create-element.js:18-20 | `add(...tokens)` succeeds exactly when every token is well formed. Otherwise it reports the error of the first malformed token: every token before it is well formed. |
| Dom.ClassSet | src/base-component.js:29 | Setting `className` yields only well-formed tokens. Every whitespace-separated run of the string is a class, and every class is such a run. `''` gives no classes. |
| Dom.ClassSetSplit | src/base-component.js:29 | A space never belongs to a class: the class set of two strings joined by a space is the union of their class sets. |
| Dom.ClassSetOfSerialized | src/base-component.js:29 | Round trip: well-formed tokens joined by single spaces, as the class list serializes them, parse back into exactly those tokens. |
| Dom.ClassSetOfToken | examples/index.js:110 | A class name that is one token, such as `menu__link`, denotes exactly that class. |
| Dom.AsciiLower | src/base-component.js:86-95 | The name an HTML element stores an attribute under: same length, each ASCII upper alpha replaced by its lower alpha, every other character kept, and no ASCII upper alpha left. |
| Dom.AsciiLowerKeepsLower | src/base-component.js:86-95 | A name without ASCII upper alphas is stored as given. |
| Dom.AsciiLowerIdempotent | src/base-component.js:86-95 | Lowercasing a stored name again changes nothing. |
| Dom.HrefNames | examples/index.js:137 | `HREF` and `href` name the same attribute, stored as `href`, the name the Link passes. |
| Dom.RemoveAfterSet | src/base-component.js:86-95 | `removeAttribute` right after `setAttribute` with a name equal up to ASCII case undoes the setting: the attributes are those of the removal alone. |
| Dom.Toggled | src/base-component.js:102-104 | `toggle` flips the membership of the token and leaves every other class as it was. |
| Dom.ToggledTwice | src/base-component.js:102-104 | Toggling the same class twice restores the original class set. |
| Dom.Without | src/base-component.js:141 | Taking a node out of its old parent removes every occurrence of that node and keeps every other child with its multiplicity. |
| Dom.WithoutAppend | src/base-component.js:141 | Removal works part by part, so the remaining children keep their order. |
| Dom.Except | src/base-component.js:129-134 | Taking several nodes out of a parent keeps exactly the other children, with their multiplicity. |
| Dom.ExceptWithout | src/base-component.js:129-134 | Removing nodes one after another is removing them all at once. |
| Dom.Node.constructor | src/base-component.js:28 | `document.createElement(tag)` gives an element with that tag and no classes, attributes, text, listeners, parent or children. |
| Dom.Node.SetClassName | src/base-component.js:29 | The class set becomes the tokens of the new class name. Nothing else changes. |
| Dom.Node.SetTextContent | src/base-component.js:77-79 | The text becomes the new content. Every former element child is detached, and nothing else about it changes. |
| Dom.Node.SetAttribute | src/base-component.js:86-88 | Only the attribute under the name in ASCII lowercase changes, to the given value. |
| Dom.Node.RemoveAttribute | src/base-component.js:94-96 | Only the attribute under the name in ASCII lowercase is removed. |
| Dom.Node.ToggleClass | src/base-component.js:102-104 | A malformed token leaves the element unchanged and reports the error. A well-formed token is toggled. |
| Dom.Node.AddClasses | src/create-element.js:18-20 | With a malformed token, nothing is added and the error is reported. Otherwise every token is added, with duplicates collapsed. |
| Dom.Node.AddEventListener | src/base-component.js:112-114 | The listener for (event, callback, capture) is added. A missing callback adds nothing. |
| Dom.Node.RemoveEventListener | src/base-component.js:122-124 | The matching listener is removed. A missing callback removes nothing. |
| Dom.Node.Append | src/base-component.js:44 | The child becomes the last child and its parent is this node. Its old parent, if any, loses it. Nothing else about the three nodes changes. |
| Dom.Node.Remove | src/base-component.js:141 | The node loses its parent, the parent loses the node, and a parentless node stays as it is. |
| Dom.Registered | src/base-component.js:112-114 | The listeners `addEventListener` registers all carry the given event, capture flag and callback. There is at least one exactly when a callback is given. |
| Dom.AddThenRemove | src/base-component.js:112-124 | `addListener` then `removeListener` with the same triple restores the listener set, unless that listener was there before. |
| Dom.CreateElement | src/create-element.js:10-28 | Tag and text default to `div` and `''`. With classes, the result fails with the first token error or has exactly the given tokens; without classes, it has none. The element is fresh, has no children, and becomes the parent's last child when a parent is given (otherwise it has no parent). |
| Components.OwnListeners | src/button.js:18-21 | The listeners a component registers when built: click listeners without capture, carrying the component's own callback. There is one only for a Button or Link with a callback. |
| Components.MainNavClassSet | examples/index.js:165 | The demo menu's class name `nav nav--main` denotes exactly the classes `nav` and `nav--main`. |
| Components.ActiveClassIsToken | examples/index.js:104 | `menu__item--active` is a well-formed token, so toggling it never throws. |
| Components.ItemClassSet | examples/index.js:168 | The demo's item class name `menu__item` denotes exactly that class. |
| Components.LinkClassSet | examples/index.js:110 | The link class name `menu__link` denotes exactly that class. |
| Components.Retarget | examples/index.js:92-100 | After `toggleActiveItem` visits an item, the active class is present exactly when the item is the target, and no other class changes. |
| Components.RetargetIdempotent | examples/index.js:94-98 | A second visit with the same target changes nothing. An active target, or an inactive sibling, is left as it is. |
| Components.UnguardedRemoveIsGuarded | examples/index.js:80-83 | The demo Button removes its listener without a guard. Since a missing callback matches nothing, this equals the guarded removal of src/button.js:25-27. |
| Components.CreateNode | src/base-component.js:28-30 | The constructor's element has the given tag, the class set of the given class name and the given text, and no children or parent. |
| Components.AfterDestroyEffect | src/base-component.js:129-142 | What destroying a set of components does to each node. The node of a destroyed component has no parent and none of the click listeners that component registered. Every other property of every node stays, and the nodes of surviving components keep their parent. A node's kids are its old kids less exactly the destroyed nodes it was the parent of. |
| Components.AfterDestroyTwice | src/base-component.js:130-132 | Destroying the children one after another is destroying all of them at once. |
| Components.AfterDestroyIdempotent | src/base-component.js:139-142 | Destroying the same components a second time changes no node any further. |
| Components.AfterDestroyDone | src/base-component.js:139-142 | Destroying a component whose node has no parent and none of the component's own listeners changes no node. |
| Components.AfterDestroyWithin | src/base-component.js:130-132 | Destroying one child changes only the nodes of its subtree and their parents. |
| Components.AfterDestroyOne | src/base-component.js:139-142 | Destroying a component without children is unregistering its listeners and detaching its node. |
| Components.AfterDestroyLast | src/base-component.js:139-142 | `destroy` in its own order (unregister, destroy the children, detach the node) is destroying all of them at once. |
| Components.ClosedTwice | src/base-component.js:130-132 | When each step of the loop destroys a child with all of its descendants, so does the whole loop. |
| Components.ClearedTwice | src/base-component.js:130-133 | Emptying the children lists of one set of components and then another is emptying both at once. |
| Components.Component.constructor | src/base-component.js:27-36 | Tag, class name and text default to `div`, `''` and `''`. The children are the rest arguments in order. The element's children are their elements in the same order, each now parented here and otherwise unchanged. The new component owns exactly itself, its element and what the children own, and what each child owns is unchanged. |
| Components.Component.Append | src/base-component.js:42-45 | The children become the old children plus `c`. `c`'s element becomes the last DOM child, moved away from any previous parent. The tree stays valid. |
| Components.Component.AppendChildren | src/base-component.js:51-55 | The children become the old children plus `cs`, and the DOM children the old ones plus their elements. Each of those elements is parented here and keeps its properties and kids. This component comes to own exactly what it owned and what the components of `cs` own, and what each of those owns is unchanged. |
| Components.Component.SetTextContent | src/base-component.js:77-79 | Only the text changes, and the children list stays the same. The DOM children are detached, as the DOM setter does, and each keeps its properties and its own kids. |
| Components.Component.SetAttribute | src/base-component.js:86-88 | Only the attribute under the lowercased name changes. The children list stays the same. |
| Components.Component.RemoveAttribute | src/base-component.js:94-96 | Only the attribute under the lowercased name is removed. The children list stays the same. |
| Components.Component.ToggleClass | src/base-component.js:102-104 | Only the class set changes, following `classList.toggle`. The children list stays the same. |
| Components.Component.AddListener | src/base-component.js:112-114 | Only the listener set changes, gaining the listener. |
| Components.Component.RemoveListener | src/base-component.js:122-124 | Only the listener set changes, losing the matching listener. |
| Components.Component.DestroyEach | src/base-component.js:130-132 | The `forEach` loop: every child is destroyed, with all its descendants. The nodes end up as `AfterDestroy` of their old states, and the destroyed components' children lists are empty. This component's own node is not destroyed. |
| Components.Component.DestroyChildren | src/base-component.js:129-134 | The children list is empty. Every former child and all its descendants are destroyed, as `AfterDestroy` and `Cleared` describe. By AfterDestroyEffect, this component's node keeps its properties and parent, and its kids lose exactly the former children's nodes. |
| Components.Component.Unregister | src/button.js:24-27 | The first step of `destroy`: a Button with a callback, or a Link, loses its click listener. Nothing else changes. |
| Components.Component.Detach | src/base-component.js:141 | The last step of `destroy`: the node has no parent afterwards, and the old parent's kids lose it. With the listeners unregistered and the descendants destroyed before, this completes destroying the component and its descendants. No children list changes. |
| Components.Component.Destroy | src/base-component.js:139-142 | Afterwards the component has no children, owns only itself and its element, and its element has no parent. The component and all its descendants are destroyed, as `AfterDestroy` and `Cleared` describe. Every such node has no parent and none of its own click listeners, and the old DOM parent's kids lose the node. Nodes elsewhere keep their state. The parent component is outside what it may modify, so its children list still holds the destroyed child, as in the source. |
| Components.Component.DestroyAgain | src/base-component.js:139-142 | `destroy` on a component already destroyed (no children, no parent, none of its own listeners) leaves its element's state as it was. |
| Components.Component.DestroyTwice | src/base-component.js:139-142 | Two `destroy` calls in a row change the nodes exactly as the first one does. |
| Components.Component.Button | src/button.js:16-22 | A `button` element with the class name and text, no children, and exactly the click listener of `onClick` (none without it). |
| Components.Component.Link | examples/index.js:134-142 | An `a` element whose `href` is the given one, with the class name and text, and exactly the click listener of the callback. |
| Components.Component.SetHref | examples/index.js:144-146 | Only the `href` attribute changes. |
| Components.Component.MenuItem | examples/index.js:106-118 | An `li` with exactly one child: a Link of class `menu__link` with the `href`, the text and a click callback. That link's element is the item's only DOM child, and the item's class set is that of its class name. |
| Components.Component.Menu | examples/index.js:87-90 | A `nav` whose children are `items` in order, their elements appended under it. Each item's element keeps its properties and its kids, so no item becomes active and each keeps its link. The menu owns exactly itself, its element and what the items own, and what each item owns is unchanged. |
| Components.Component.IsActive | examples/index.js:120-122 | A MenuItem is active exactly when its element's class set holds `menu__item--active`; any other component is never active. |
| Components.Component.AddActiveClass | examples/index.js:124-126 | The active class is toggled, so an inactive item becomes active. Nothing else changes. |
| Components.Component.RemoveActiveClass | examples/index.js:128-130 | The active class is toggled, so an active item becomes inactive. Nothing else changes. |
| Components.Component.ToggleActiveItem | examples/index.js:92-100 | Afterwards a child is active exactly when it is `item`, even with duplicates, and no child is active when `item` is not a child. Only the active class of MenuItem children changes. The children list and every element's place stay the same. |
| Components.EntriesSnoc | examples/index.js:166-175 | One more item built by the `map` callback, owning nothing the earlier ones own, extends the list of built items. |
| Components.EntriesDistinct | examples/index.js:166-175 | The built items are distinct, with distinct elements. No link's element is an item's element. |
| Components.App.Entry | examples/index.js:167-174 | The item built for entry `k`: class `menu__item`, a link to the entry's `href` with the entry's text and callback id `k`, all fresh. |
| Components.App.MenuItems | examples/index.js:154-175 | Three detached items with fresh elements, in the order of the menu data. Each links to `#`, `#about` and `#contact` respectively. |
| Components.App.DemoMenu | examples/index.js:164-176 | A `nav` of class `nav nav--main` whose children are the three items in order, with their elements as its kids in the same order. Each item has class `menu__item` and holds a link whose callback has its position as id. |
| Components.Wrapped | src/base-component.js:27-36 | A component built around a fresh child owns exactly the two of them and their two elements, with the child's element below its own. |
| Components.Nested | src/base-component.js:51-55 | `appendChildren` on a component built earlier, which already has a child: the outer component then owns all three components and their elements. |
| Components.App.constructor | examples/index.js:163-177 | The application's menu is that demo menu. |
| Components.App.Click | examples/index.js:171-173 | A click on the link of item `id` makes that item the only active one. Nothing but the active class changes: every other property, the parent and the kids of each item's element stay. A click with an id no link has changes no class. |

## Left out

- Rendering and mounting (`render`, `app.render(document.body)`, examples/index.js:179-185): browser I/O.
- Real event dispatch and `Event` objects: a click is `App.Click(id)`, which runs the callback with that id. The listener options object is reduced to its capture flag, and every call the source makes uses `false`.
- `HierarchyRequestError` in the component layer: `append` pushes the child before the DOM append, which throws on a cycle. The model instead requires the appended component to be a child already, or to own no component and no node this one owns, and this one to own none of its (`Appendable`, `Loose`). This also excludes appending a component that sits deeper in this subtree, which the DOM accepts as a move.
- Dom.Node.Append: requires only that the child is not the node itself. It does not reject appending an ancestor of the node, so it can build a parent cycle where the DOM throws a HierarchyRequestError. The ancestor relation is not modelled; the component layer calls it only under `Appendable`.
- Components.Component.constructor: requires the rest-argument children to be valid, detached and owning disjoint subtrees (`Loose`).
- Components.Component.Menu: has the same requirement on `items`.
- Components.Component.AppendChildren: requires the appended components to be detached (`Loose`). Moving a component that is already a child of this one, which `append` allows, is modelled only by Components.Component.Append.
- Components.Component.ToggleActiveItem: requires distinct children to have distinct elements (`DistinctNodes`), which every tree the constructors build satisfies. Duplicated entries of the same child are allowed.
- Components.Component.ToggleActiveItem: requires `item`, when it is a child, to be a MenuItem. A child of another kind has no `isActive` and no `addActiveClass`, so targeting it throws a TypeError (examples/index.js:94-95). That error path is not modelled.
- Components.Component.Destroy: requires that no node of the subtree is its own parent, which the DOM never allows.
- Components.App.DemoMenu: does not restate the links' `href` attributes once the menu has adopted the items. The links' elements lie outside what the Menu constructor may modify; Components.App.MenuItems states the `href`s.
- Components.App.constructor: states the same facts as Components.App.DemoMenu, so it has the same gap.
- `Valid()` tracks ownership and disjointness, not that a component's children list and its element's DOM children stay in step. Instead each operation states the DOM children of the nodes it changes, either directly or through `AfterDestroy`.
- Platform behaviour for invalid tag names, and attribute-name validation in `setAttribute`: not modelled.
- Dom.Node.SetAttribute: lowercases every name, as the DOM does for an element of the HTML namespace in an HTML document. Elements of other namespaces, which keep the name's case, are not modelled; the library only creates HTML elements.
- String coercion of `undefined` and `null` (for example `setAttribute('href', undefined)`): options are `Option` values with explicit defaults, and `href` is always a string.
- `getNode` and `getChildren` (src/base-component.js:61-71) are reads of the `node` and `children` fields.
- `isActive` on a component that is not a MenuItem is `undefined` in JavaScript, which the menu reads as false. `IsActive()` is false for such a component.
- The class attribute is the class set only. It is not mirrored into `attrs`.
- Text is a string. Text node children are not modelled.
- The menu labels are constants. Only their order matters to the model.

=== FILE: components.dfy ===
/** The component layer (src/base-component.js, src/button.js and the
    classes of examples/index.js): a component wraps one DOM node and keeps
    an ordered list of child components. JavaScript's subclasses become
    roles of one class, so that `destroy` dispatches as the overriding
    methods do. */
module Components {
  import opened Wrappers
  import opened Dom

  /** What a component is: a plain component, a Button or a Link with an
      optional click callback, a MenuItem or a Menu. */
  datatype Role =
    | Plain
    | ButtonRole(onClick: Option<int>)
    | LinkRole(onClick: Option<int>)
    | MenuItemRole
    | MenuRole

  /** The listeners a Button or Link registers on its node when constructed. */
  function OwnListeners(role: Role): (r: set<Listener>)
    ensures r != {} <==> (role.ButtonRole? || role.LinkRole?) && role.onClick.Some?
    ensures forall l <- r ::
      l.event == "click" && !l.capture && (role.ButtonRole? || role.LinkRole?) && role.onClick == Some(l.callback)
  {
    match role
    case ButtonRole(onClick) => Registered("click", onClick, false)
    case LinkRole(onClick) => Registered("click", onClick, false)
    case _ => {}
  }

  /** The demo menu's `className` of `nav nav--main` denotes the two
      classes `nav` and `nav--main`. */
  lemma MainNavClassSet()
    ensures ClassSet("nav nav--main") == {"nav", "nav--main"}
  {
    var tokens := ["nav", "nav--main"];
    assert forall i | 0 <= i < |tokens[1]| :: tokens[1][i] in "nav-mi";
    ClassSetOfSerialized(tokens);
    assert Serialized(tokens) == "nav nav--main";
    assert (set t | t in tokens) == {"nav", "nav--main"};
  }

  /** The class whose presence on a MenuItem's node makes the item active. */
  const ActiveClass: string := "menu__item--active"

  /** The class of the link inside a MenuItem. */
  const LinkClass: string := "menu__link"

  /** The class of a MenuItem's node in the demo application. */
  const ItemClass: string := "menu__item"

  /** The active class is a well-formed token, so `toggle` accepts it. */
  lemma ActiveClassIsToken()
    ensures IsToken(ActiveClass) && TokenError(ActiveClass).None?
  {
    assert forall i | 0 <= i < |ActiveClass| :: ActiveClass[i] in "menu_ia-ctv";
  }

  /** A `className` of `menu__item` denotes exactly that class. */
  lemma ItemClassSet()
    ensures ClassSet(ItemClass) == {ItemClass}
  {
    assert forall i | 0 <= i < |ItemClass| :: ItemClass[i] in "menu_it";
    ClassSetOfToken(ItemClass);
  }

  /** A `className` of `menu__link` denotes exactly that class. */
  lemma LinkClassSet()
    ensures ClassSet(LinkClass) == {LinkClass}
  {
    assert forall i | 0 <= i < |LinkClass| :: LinkClass[i] in "menu_lik";
    ClassSetOfToken(LinkClass);
  }

  /** The class set of a MenuItem's node after `toggleActiveItem` visits it:
      the active class is present exactly when the item is the target, and
      no other class changes. */
  function Retarget(classes: set<string>, target: bool): (r: set<string>)
    ensures ActiveClass in r <==> target
    ensures r - {ActiveClass} == classes - {ActiveClass}
  {
    if target && ActiveClass !in classes then Toggled(classes, ActiveClass)
    else if !target && ActiveClass in classes then Toggled(classes, ActiveClass)
    else classes
  }

  /** Visiting a MenuItem a second time with the same target changes
      nothing, so `toggleActiveItem` is idempotent; and an item already in
      the state the visit asks for, such as the active item targeted again
      or an inactive sibling, is left as it is. */
  lemma RetargetIdempotent(classes: set<string>, target: bool)
    ensures Retarget(Retarget(classes, target), target) == Retarget(classes, target)
    ensures (ActiveClass in classes <==> target) ==> Retarget(classes, target) == classes
  {
  }

  /** The Button of examples/index.js calls `removeListener` even without a
      callback; since a missing callback matches no listener, that leaves
      the listeners exactly as the guarded call of src/button.js does. */
  lemma UnguardedRemoveIsGuarded(listeners: set<Listener>, onClick: Option<int>)
    ensures listeners - Registered("click", onClick, false) ==
      if onClick.Some? then listeners - Registered("click", onClick, false) else listeners
  {
  }

  /** The nodes of `cs`, in order. */
  function NodesOf(cs: seq<Component>): (r: seq<Node>)
    ensures |r| == |cs| && forall i :: 0 <= i < |cs| ==> r[i] == cs[i].node
    decreases |cs|
  {
    if cs == [] then [] else NodesOf(cs[..|cs| - 1]) + [cs[|cs| - 1].node]
  }

  /** `document.createElement(tag)` followed by the `className` and
      `textContent` setters, as the Component constructor does. */
  method CreateNode(tag: string, className: string, text: string) returns (n: Node)
    ensures fresh(n)
    ensures n.Props() == NodeProps(tag, ClassSet(className), map[], text, {})
    ensures n.parent == null && n.kids == []
  {
    n := new Node(tag);
    n.SetClassName(className);
    n.SetTextContent(text);
  }

  /** `c` is valid, its node has no parent, and it owns none of `owned`
      and `nodes`. */
  ghost predicate Detached(c: Component, owned: set<Component>, nodes: set<Node>)
    reads c, c.Repr, c.node
  {
    c.Valid() && c.node.parent == null && c.Repr !! owned && c.Nodes !! nodes
  }

  /** The components `cs[lo..]` may be appended, one after another, to a
      component owning `owned` and `nodes`: each is valid and its node
      detached, it owns none of those, and distinct positions own disjoint
      components and nodes. */
  ghost predicate Loose(cs: seq<Component>, lo: nat, owned: set<Component>, nodes: set<Node>)
    reads (set c | c in cs), (set c, d | c in cs && d in c.Repr :: d), (set c | c in cs :: c.node)
  {
    (forall k | lo <= k < |cs| :: Detached(cs[k], owned, nodes)) &&
    (forall k, m | lo <= k < m < |cs| :: cs[k].Repr !! cs[m].Repr && cs[k].Nodes !! cs[m].Nodes)
  }

  /** Appending `cs[lo]` keeps the rest of `cs` appendable. */
  lemma LooseNext(cs: seq<Component>, lo: nat, owned: set<Component>, nodes: set<Node>)
    requires lo < |cs| && Loose(cs, lo, owned, nodes)
    ensures Loose(cs, lo + 1, owned + cs[lo].Repr, nodes + cs[lo].Nodes)
    ensures forall k | lo < k < |cs| :: Detached(cs[k], owned + cs[lo].Repr, nodes + cs[lo].Nodes)
    ensures forall k | lo < k < |cs| :: cs[k] !in owned + cs[lo].Repr && cs[k].node !in nodes + cs[lo].Nodes
  {
  }

  /** The components that the components of `cs` own. */
  ghost function OwnedBy(cs: seq<Component>): set<Component>
    reads set c | c in cs
    decreases |cs|
  {
    if cs == [] then {} else OwnedBy(cs[..|cs| - 1]) + cs[|cs| - 1].Repr
  }

  /** The nodes that the components of `cs` own. */
  ghost function NodesOwnedBy(cs: seq<Component>): set<Node>
    reads set c | c in cs
    decreases |cs|
  {
    if cs == [] then {} else NodesOwnedBy(cs[..|cs| - 1]) + cs[|cs| - 1].Nodes
  }

  /** `rs` and `ms` record, position by position, what the components of
      `cs` own. */
  ghost predicate Kept(cs: seq<Component>, rs: seq<set<Component>>, ms: seq<set<Node>>)
    reads set c | c in cs
  {
    |rs| == |cs| == |ms| && forall k | 0 <= k < |cs| :: cs[k].Repr == rs[k] && cs[k].Nodes == ms[k]
  }

  /** A record of what the components of `cs` own; each part lies in what
      they own together. */
  lemma {:induction false} Snapshot(cs: seq<Component>) returns (rs: seq<set<Component>>, ms: seq<set<Node>>)
    ensures Kept(cs, rs, ms)
    ensures forall k | 0 <= k < |cs| :: rs[k] <= OwnedBy(cs) && ms[k] <= NodesOwnedBy(cs)
    decreases |cs|
  {
    if cs == [] {
      rs, ms := [], [];
    } else {
      var n := |cs| - 1;
      rs, ms := Snapshot(cs[..n]);
      rs, ms := rs + [cs[n].Repr], ms + [cs[n].Nodes];
    }
  }

  /** What the components of `cs` own is unchanged when their footprints are. */
  twostate lemma {:induction false} OwnedSame(cs: seq<Component>)
    requires forall c <- cs :: c.Repr == old(c.Repr) && c.Nodes == old(c.Nodes)
    ensures OwnedBy(cs) == old(OwnedBy(cs)) && NodesOwnedBy(cs) == old(NodesOwnedBy(cs))
    decreases |cs|
  {
    if cs != [] {
      OwnedSame(cs[..|cs| - 1]);
    }
  }

  /** What the components of `cs` own lies in what a valid component owns
      when they are among its children. */
  lemma {:induction false} OwnedWithin(p: Component, cs: seq<Component>)
    requires p.Valid() && forall c <- cs :: c in p.children
    ensures OwnedBy(cs) <= p.Repr && NodesOwnedBy(cs) <= p.Nodes
    decreases |cs|
  {
    if cs != [] {
      OwnedWithin(p, cs[..|cs| - 1]);
      assert cs[|cs| - 1] in p.children;
    }
  }

  /** The nodes of the components `ds`. */
  function NodeSet(ds: set<Component>): set<Node> {
    set d | d in ds :: d.node
  }

  /** The nodes of a union are the nodes of its parts. */
  lemma NodeSetUnion(ds: set<Component>, es: set<Component>)
    ensures NodeSet(ds + es) == NodeSet(ds) + NodeSet(es)
  {
  }

  // Each two-state lemma below takes its arguments bundled into ONE value
  // of a small datatype (`Push`, `NodeScope`, `Destruction`, `Progress`,
  // `ChildStep`, `Last`, `NodePoint`, `NodePair`, `ComponentScope`,
  // `ChildAt`). With several parameters, a two-state lemma call is not
  // handled reliably by the verifier once contradictory assumptions are
  // reported. It is called as `L@Label(Bundle(...))`, which compares the
  // state at `Label` with the current one.

  /** A component and the component pushed onto its children. */
  datatype Push = Push(p: Component, c: Component)

  /** Pushing an appendable component keeps its parent valid, when no
      other component changes. */
  twostate lemma PushValid(a: Push)
    requires old(a.p.Valid()) && old(a.p.Appendable(a.c))
    requires a.p.children == old(a.p.children) + [a.c]
    requires a.p.Repr == old(a.p.Repr) + old(a.c.Repr) && a.p.Nodes == old(a.p.Nodes) + old(a.c.Nodes)
    requires unchanged(old(a.p.Repr) - {a.p}) && unchanged(old(a.c.Repr))
    ensures a.p.Valid()
  {
    assert forall d <- a.p.children :: d.Valid() && a.p !in d.Repr && a.p.node !in d.Nodes;
  }

  /** A component without children, owning only itself and its node, is
      valid. */
  lemma LeafValid(c: Component)
    requires c.children == [] && c.Repr == {c} && c.Nodes == {c.node}
    ensures c.Valid()
  {
    assert c.ChildrenValid();
  }

  /** The DOM parents of nodes of `ns` that are not themselves in `ns`. */
  ghost function OutsideParents(ns: set<Node>): set<Node>
    reads ns
  {
    set n | n in ns && n.parent != null && n.parent !in ns :: n.parent
  }

  /** The children of each component of `ds`. */
  ghost function ChildLists(ds: set<Component>): map<Component, seq<Component>>
    reads ds
  {
    map d | d in ds :: d.children
  }

  /** Two nested sets of nodes. */
  datatype NodeScope = NodeScope(all: set<Node>, part: set<Node>)

  /** When only the nodes of `s.part` may have changed, the states of
      `s.all` are the old ones updated with the new states of `s.part`. */
  twostate lemma StatesFrame(s: NodeScope)
    requires s.part <= s.all && unchanged(s.all - s.part)
    ensures States(s.all) == old(States(s.all)) + States(s.part)
  {
  }

  /** Unchanged nodes have unchanged states. */
  twostate lemma StatesSame(ns: set<Node>)
    requires unchanged(ns)
    ensures States(ns) == old(States(ns))
  {
  }

  /** Unchanged children give unchanged children lists. */
  twostate lemma ChildListsSame(ds: set<Component>)
    requires forall d <- ds :: d.children == old(d.children)
    ensures ChildLists(ds) == old(ChildLists(ds))
  {
  }

  /** The nodes a destruction changes, and the components it destroys. */
  datatype Destruction = Destruction(w: set<Node>, gone: set<Component>)

  /** Destroying components only ever clears parent links. */
  twostate lemma ParentsCleared(d: Destruction)
    requires States(d.w) == AfterDestroy(old(States(d.w)), d.gone)
    ensures forall n <- d.w :: n.parent == null || n.parent == old(n.parent)
  {
    forall n <- d.w ensures n.parent == null || n.parent == old(n.parent) {
      assert n.State() == States(d.w)[n];
    }
  }

  /** A destruction in progress: the node states `st` and children lists
      `cl` of the start, the components `gone` destroyed so far, and the
      components `step` of the latest destruction. */
  datatype Progress = Progress(w: set<Node>, r: set<Component>, st: map<Node, NodeState>,
                               cl: map<Component, seq<Component>>, gone: set<Component>, step: set<Component>)

  /** Destroying `gone` and then `step` destroys `gone + step`. */
  twostate lemma Accumulate(a: Progress)
    requires old(States(a.w)) == AfterDestroy(a.st, a.gone) && States(a.w) == AfterDestroy(old(States(a.w)), a.step)
    requires old(ChildLists(a.r)) == Cleared(a.cl, a.gone) && ChildLists(a.r) == Cleared(old(ChildLists(a.r)), a.step)
    requires Closed(a.cl, a.gone) && Closed(old(ChildLists(a.r)), a.step)
    ensures States(a.w) == AfterDestroy(a.st, a.gone + a.step)
    ensures ChildLists(a.r) == Cleared(a.cl, a.gone + a.step) && Closed(a.cl, a.gone + a.step)
  {
    AfterDestroyTwice(a.st, a.gone, a.step);
    ClearedTwice(a.cl, a.gone, a.step);
    ClosedTwice(a.cl, a.gone, a.step);
  }

  /** One child destroyed during a destruction in progress (`Progress`'s
      `w`, `r`, `st`, `cl`, `before` and `step`): the nodes `sub` it
      watched, of which `nodes` are its own, and the components `owned`
      it owned. */
  datatype ChildStep = ChildStep(w: set<Node>, r: set<Component>, st: map<Node, NodeState>,
                                 cl: map<Component, seq<Component>>, before: set<Component>, step: set<Component>,
                                 sub: set<Node>, nodes: set<Node>, owned: set<Component>)

  /** Destroying one child, which changes only what it watched and owned,
      extends a destruction in progress by what it destroyed, and only
      ever clears parent links. */
  twostate lemma ChildGone(a: ChildStep)
    requires a.sub <= a.w && unchanged(a.w - a.sub) && a.owned <= a.r && unchanged(a.r - a.owned)
    requires a.nodes <= a.sub && NodeSet(a.step) <= a.nodes
    requires old(forall m <- a.nodes :: m.parent == null || m.parent in a.sub)
    requires States(a.sub) == AfterDestroy(old(States(a.sub)), a.step)
    requires ChildLists(a.owned) == Cleared(old(ChildLists(a.owned)), a.step) && Closed(old(ChildLists(a.owned)), a.step)
    requires old(States(a.w)) == AfterDestroy(a.st, a.before)
    requires old(ChildLists(a.r)) == Cleared(a.cl, a.before) && Closed(a.cl, a.before)
    ensures States(a.w) == AfterDestroy(a.st, a.before + a.step)
    ensures ChildLists(a.r) == Cleared(a.cl, a.before + a.step) && Closed(a.cl, a.before + a.step)
    ensures forall n <- a.w :: n.parent == null || n.parent == old(n.parent)
  {
    StatesFrame(NodeScope(a.w, a.sub));
    ChildListsFrame(ComponentScope(a.r, a.owned));
    AfterDestroyWithin(old(States(a.w)), old(States(a.sub)), a.step);
    ParentsCleared(Destruction(a.w, a.step));
    Accumulate(Progress(a.w, a.r, a.st, a.cl, a.before, a.step));
  }

  /** The end of destroying `c`: the nodes `w`, their states `st` before,
      and the components `below` destroyed with it. */
  datatype Last = Last(w: set<Node>, st: map<Node, NodeState>, below: set<Component>, c: Component)

  /** Unregistering the listeners of `c`, destroying `below`, then
      detaching the node of `c` destroys `below` and `c`. */
  twostate lemma Completes(a: Last)
    requires a.c.node in a.st && a.c.node !in NodeSet(a.below) && a.st[a.c.node].parent != a.c.node
    requires old(States(a.w)) == AfterDestroy(Unlisten(a.st, a.c), a.below)
    requires States(a.w) == Unparented(old(States(a.w)), a.c.node)
    ensures States(a.w) == AfterDestroy(a.st, a.below + {a.c})
  {
    AfterDestroyLast(a.st, a.below, a.c);
  }

  /** A set of nodes and one or two of them. */
  datatype NodePoint = NodePoint(all: set<Node>, n: Node)
  datatype NodePair = NodePair(all: set<Node>, n: Node, p: Node)

  /** When only `s.n` may have changed, only its state has. */
  twostate lemma StatesPoint(s: NodePoint)
    requires s.n in s.all && unchanged(s.all - {s.n})
    ensures States(s.all) == old(States(s.all))[s.n := s.n.State()]
  {
  }

  /** When only `s.n` and `s.p` may have changed, only their states have. */
  twostate lemma StatesPair(s: NodePair)
    requires s.n in s.all && s.p in s.all && unchanged(s.all - {s.n, s.p})
    ensures States(s.all) == old(States(s.all))[s.n := s.n.State()][s.p := s.p.State()]
  {
  }

  /** The children lists of `ds` are those of `ds` without `d`, and `d`'s. */
  lemma ChildListsSplit(ds: set<Component>, d: Component)
    requires d in ds
    ensures ChildLists(ds) == ChildLists(ds - {d})[d := d.children]
  {
  }

  /** Two nested sets of components. */
  datatype ComponentScope = ComponentScope(all: set<Component>, part: set<Component>)

  /** When only the components of `s.part` may have changed, the children
      lists of `s.all` are the old ones updated with those of `s.part`. */
  twostate lemma ChildListsFrame(s: ComponentScope)
    requires s.part <= s.all && unchanged(s.all - s.part)
    ensures ChildLists(s.all) == old(ChildLists(s.all)) + ChildLists(s.part)
  {
  }

  /** A component and the index of one of its children. */
  datatype ChildAt = ChildAt(owner: Component, i: nat)

  /** Destroying one child, which leaves it owning only itself and its
      node and changes nothing its siblings own, keeps the children
      valid. */
  twostate lemma ChildrenStayValid(a: ChildAt)
    requires a.i < |old(a.owner.children)| && old(a.owner.ChildrenValid()) && a.owner in old(a.owner.Repr)
    requires unchanged(old(a.owner.Repr) - old(a.owner.children[a.i].Repr))
    requires var c := old(a.owner.children[a.i]); c.Valid() && c.Repr == {c} && c.Nodes == {c.node}
    ensures a.owner.ChildrenValid()
  {
    var c := old(a.owner.children[a.i]);
    assert forall d <- a.owner.children | d != c :: d.Repr == old(d.Repr) && d.Nodes == old(d.Nodes);
  }

  // ---------------------------------------------------------------------
  // Destruction, on values
  // ---------------------------------------------------------------------

  /** The listeners that the components of `gone` whose node is `n`
      registered on it. */
  function ListenersOf(gone: set<Component>, n: Node): set<Listener> {
    set d, l | d in gone && d.node == n && l in OwnListeners(d.role) :: l
  }

  /** The nodes of `ns` whose parent, as `st` records it, is `p`. */
  function ParentedBy(ns: set<Node>, st: map<Node, NodeState>, p: Node): set<Node> {
    set n | n in ns && n in st && st[n].parent == p
  }

  /** The nodes `st` describes, once the components of `gone` are
      destroyed: the node of each has lost the listeners it registered and
      its parent, and every node has lost from its kids those nodes of
      `gone` it was the parent of. */
  function AfterDestroy(st: map<Node, NodeState>, gone: set<Component>): (r: map<Node, NodeState>)
    ensures r.Keys == st.Keys
  {
    map n | n in st :: DestroyedState(st, gone, n)
  }

  /** The state of `n` in `AfterDestroy(st, gone)`. */
  function DestroyedState(st: map<Node, NodeState>, gone: set<Component>, n: Node): NodeState
    requires n in st
  {
    NodeState(
      st[n].props.(listeners := st[n].props.listeners - ListenersOf(gone, n)),
      if n in NodeSet(gone) then null else st[n].parent,
      Except(st[n].kids, ParentedBy(NodeSet(gone), st, n)))
  }

  /** What destroying `gone` does to each node: the node of a destroyed
      component has no parent and none of the listeners that component
      registered; every other node keeps its properties and its parent;
      no node loses anything else; and each node's kids are its old kids
      less exactly the destroyed nodes it was the parent of. */
  lemma AfterDestroyEffect(st: map<Node, NodeState>, gone: set<Component>)
    ensures var r := AfterDestroy(st, gone);
      (forall d <- gone | d.node in st ::
         r[d.node].parent == null && r[d.node].props.listeners !! OwnListeners(d.role)) &&
      (forall n <- st.Keys ::
         r[n].props == st[n].props.(listeners := r[n].props.listeners) &&
         r[n].props.listeners <= st[n].props.listeners) &&
      (forall n <- st.Keys | n !in NodeSet(gone) :: r[n].props == st[n].props && r[n].parent == st[n].parent) &&
      (forall n <- st.Keys, m <- r[n].kids :: m in st[n].kids && m !in ParentedBy(NodeSet(gone), st, n)) &&
      (forall n <- st.Keys, m <- st[n].kids | m !in ParentedBy(NodeSet(gone), st, n) :: m in r[n].kids)
  {
  }

  /** Destroying nothing changes nothing. */
  lemma AfterDestroyNothing(st: map<Node, NodeState>)
    ensures AfterDestroy(st, {}) == st
  {
    assert NodeSet({}) == {};
    forall n | n in st ensures AfterDestroy(st, {})[n] == st[n] {
      assert ListenersOf({}, n) == {};
      assert ParentedBy({}, st, n) == {};
      ExceptNone(st[n].kids);
      assert st[n].props.listeners - {} == st[n].props.listeners;
    }
  }

  /** Destroying `gone` and then `more` is destroying both at once. */
  lemma AfterDestroyTwice(st: map<Node, NodeState>, gone: set<Component>, more: set<Component>)
    ensures AfterDestroy(AfterDestroy(st, gone), more) == AfterDestroy(st, gone + more)
  {
    var mid := AfterDestroy(st, gone);
    NodeSetUnion(gone, more);
    forall n | n in st ensures AfterDestroy(mid, more)[n] == AfterDestroy(st, gone + more)[n] {
      assert ListenersOf(gone + more, n) == ListenersOf(gone, n) + ListenersOf(more, n);
      assert ParentedBy(NodeSet(gone + more), st, n) ==
        ParentedBy(NodeSet(gone), st, n) + ParentedBy(NodeSet(more), mid, n);
      ExceptUnion(st[n].kids, ParentedBy(NodeSet(gone), st, n), ParentedBy(NodeSet(more), mid, n));
      var l := st[n].props.listeners;
      assert l - ListenersOf(gone, n) - ListenersOf(more, n) == l - ListenersOf(gone + more, n);
    }
  }

  /** Destroying the same components again changes nothing more. */
  lemma AfterDestroyIdempotent(st: map<Node, NodeState>, gone: set<Component>)
    ensures AfterDestroy(AfterDestroy(st, gone), gone) == AfterDestroy(st, gone)
  {
    AfterDestroyTwice(st, gone, gone);
    assert gone + gone == gone;
  }

  /** Destroying a component whose node has no parent and none of the
      listeners the component registers changes nothing. */
  lemma AfterDestroyDone(st: map<Node, NodeState>, c: Component)
    requires c.node in st && st[c.node].parent == null && st[c.node].props.listeners !! OwnListeners(c.role)
    ensures AfterDestroy(st, {c}) == st
  {
    assert NodeSet({c}) == {c.node};
    forall n | n in st ensures AfterDestroy(st, {c})[n] == st[n] {
      var l := st[n].props.listeners;
      assert ListenersOf({c}, n) == if n == c.node then OwnListeners(c.role) else {};
      assert l - ListenersOf({c}, n) == l;
      assert ParentedBy({c.node}, st, n) == {};
      ExceptNone(st[n].kids);
    }
  }

  /** Destroying components whose nodes, and those nodes' parents, all lie
      in `sub` changes only the nodes of `sub`. */
  lemma AfterDestroyWithin(st: map<Node, NodeState>, sub: map<Node, NodeState>, gone: set<Component>)
    requires forall n <- sub.Keys :: n in st && st[n] == sub[n]
    requires forall m <- NodeSet(gone) | m in st :: m in sub && (sub[m].parent == null || sub[m].parent in sub.Keys)
    ensures AfterDestroy(st, gone) == st + AfterDestroy(sub, gone)
  {
    forall n | n in st ensures AfterDestroy(st, gone)[n] == (st + AfterDestroy(sub, gone))[n] {
      AfterDestroyWithinAt(st, sub, gone, n);
    }
  }

  /** `AfterDestroyWithin`, node by node. */
  lemma AfterDestroyWithinAt(st: map<Node, NodeState>, sub: map<Node, NodeState>, gone: set<Component>, n: Node)
    requires forall n <- sub.Keys :: n in st && st[n] == sub[n]
    requires forall m <- NodeSet(gone) | m in st :: m in sub && (sub[m].parent == null || sub[m].parent in sub.Keys)
    requires n in st
    ensures DestroyedState(st, gone, n) == if n in sub then DestroyedState(sub, gone, n) else st[n]
  {
    if n in sub {
      assert ParentedBy(NodeSet(gone), st, n) == ParentedBy(NodeSet(gone), sub, n);
    } else {
      assert ListenersOf(gone, n) == {};
      assert ParentedBy(NodeSet(gone), st, n) == {};
      ExceptNone(st[n].kids);
      assert st[n].props.listeners - {} == st[n].props.listeners;
    }
  }

  /** `st` with the listeners `c` registered removed from its node. */
  function Unlisten(st: map<Node, NodeState>, c: Component): (r: map<Node, NodeState>)
    requires c.node in st
    ensures r.Keys == st.Keys
  {
    st[c.node := st[c.node].(props := st[c.node].props.(listeners := st[c.node].props.listeners - OwnListeners(c.role)))]
  }

  /** `st` with `n` taken out of its parent, as `Node.Remove` does. */
  function Unparented(st: map<Node, NodeState>, n: Node): (r: map<Node, NodeState>)
    requires n in st
    ensures r.Keys == st.Keys
  {
    var p := st[n].parent;
    if p != null && p in st && p != n then
      st[n := st[n].(parent := null)][p := st[p].(kids := Without(st[p].kids, n))]
    else
      st[n := st[n].(parent := null)]
  }

  /** Unregistering the listeners of `c` commutes with destroying
      components that do not share its node. */
  lemma AfterDestroyUnlisten(st: map<Node, NodeState>, below: set<Component>, c: Component)
    requires c.node in st && c.node !in NodeSet(below)
    ensures AfterDestroy(Unlisten(st, c), below) == Unlisten(AfterDestroy(st, below), c)
  {
    var before, after := AfterDestroy(Unlisten(st, c), below), Unlisten(AfterDestroy(st, below), c);
    assert before.Keys == after.Keys;
    forall n | n in st ensures before[n] == after[n] {
      AfterDestroyUnlistenAt(st, below, c, n);
    }
  }

  /** `AfterDestroyUnlisten`, node by node. */
  lemma AfterDestroyUnlistenAt(st: map<Node, NodeState>, below: set<Component>, c: Component, n: Node)
    requires c.node in st && c.node !in NodeSet(below) && n in st
    ensures AfterDestroy(Unlisten(st, c), below)[n] == Unlisten(AfterDestroy(st, below), c)[n]
  {
    var u, y := Unlisten(st, c), AfterDestroy(st, below);
    assert ParentedBy(NodeSet(below), u, n) == ParentedBy(NodeSet(below), st, n);
    if n == c.node {
      assert ListenersOf(below, n) == {};
      var l := st[n].props.listeners;
      assert l - OwnListeners(c.role) - {} == l - {} - OwnListeners(c.role);
    } else {
      assert u[n] == st[n] && Unlisten(y, c)[n] == y[n];
    }
  }

  /** Destroying one component: its listeners are unregistered and its
      node is detached. */
  lemma AfterDestroyOne(st: map<Node, NodeState>, c: Component)
    requires c.node in st && st[c.node].parent != c.node
    ensures AfterDestroy(st, {c}) == Unparented(Unlisten(st, c), c.node)
  {
    var before, after := AfterDestroy(st, {c}), Unparented(Unlisten(st, c), c.node);
    assert NodeSet({c}) == {c.node};
    assert before.Keys == after.Keys;
    forall n | n in st ensures before[n] == after[n] {
      var l := st[n].props.listeners;
      if n == c.node {
        assert ListenersOf({c}, n) == OwnListeners(c.role);
      } else {
        assert ListenersOf({c}, n) == {};
        assert l - {} == l;
      }
      if n == st[c.node].parent {
        assert ParentedBy({c.node}, st, n) == {c.node};
        ExceptOne(st[n].kids, c.node);
      } else {
        assert ParentedBy({c.node}, st, n) == {};
        ExceptNone(st[n].kids);
      }
    }
  }

  /** `destroy` in its own order: unregister the component's listeners,
      destroy the components `below` it, then detach its node; this is
      destroying all of them at once. */
  lemma AfterDestroyLast(st: map<Node, NodeState>, below: set<Component>, c: Component)
    requires c.node in st && c.node !in NodeSet(below) && st[c.node].parent != c.node
    ensures AfterDestroy(st, below + {c}) == Unparented(AfterDestroy(Unlisten(st, c), below), c.node)
  {
    AfterDestroyTwice(st, below, {c});
    AfterDestroyOne(AfterDestroy(st, below), c);
    AfterDestroyUnlisten(st, below, c);
  }

  /** The children lists `cl` once the components of `gone` are destroyed. */
  function Cleared(cl: map<Component, seq<Component>>, gone: set<Component>): (r: map<Component, seq<Component>>)
    ensures r.Keys == cl.Keys
    ensures forall d <- cl.Keys :: r[d] == if d in gone then [] else cl[d]
  {
    map d | d in cl :: if d in gone then [] else cl[d]
  }

  /** Every child, as `cl` records the children, of a component of `gone`
      is in `gone`. */
  predicate Closed(cl: map<Component, seq<Component>>, gone: set<Component>) {
    forall d <- gone :: d in cl && forall e <- cl[d] :: e in gone
  }

  /** Destroying a closed set and then one closed under the children left
      over gives a closed set. */
  lemma ClosedTwice(cl: map<Component, seq<Component>>, gone: set<Component>, more: set<Component>)
    requires Closed(cl, gone) && Closed(Cleared(cl, gone), more)
    ensures Closed(cl, gone + more)
  {
    forall d <- more | d !in gone ensures forall e <- cl[d] :: e in more {
      assert Cleared(cl, gone)[d] == cl[d];
    }
  }

  /** Clearing nothing changes nothing, and the empty set is closed. */
  lemma ClearedNothing(cl: map<Component, seq<Component>>)
    ensures Cleared(cl, {}) == cl && Closed(cl, {})
  {
  }

  /** Adding a component whose children are all in a closed set keeps it
      closed. */
  lemma ClosedAdd(cl: map<Component, seq<Component>>, d: Component, children: seq<Component>, gone: set<Component>)
    requires Closed(cl, gone) && d !in cl && forall e <- children :: e in gone
    ensures Closed(cl[d := children], gone + {d})
  {
  }

  /** Clearing a component added to the map, along with others. */
  lemma ClearedAdd(cl: map<Component, seq<Component>>, d: Component, children: seq<Component>, gone: set<Component>)
    ensures Cleared(cl[d := children], gone + {d}) == Cleared(cl, gone)[d := []]
  {
  }

  /** Clearing `gone` and then `more` is clearing both at once. */
  lemma ClearedTwice(cl: map<Component, seq<Component>>, gone: set<Component>, more: set<Component>)
    ensures Cleared(Cleared(cl, gone), more) == Cleared(cl, gone + more)
  {
  }

  class Component {
    const node: Node
    const role: Role
    var children: seq<Component>
    /** The components of this subtree, this one included. */
    ghost var Repr: set<Component>
    /** The nodes of this subtree's components. */
    ghost var Nodes: set<Node>

    /** The ownership tree: every child is valid and owns components and
        nodes of its own, disjoint from those of every other child. */
    ghost predicate Valid()
      reads this, Repr
      ensures Valid() ==> this in Repr && node in Nodes
      decreases Repr, 1
    {
      node in Nodes && ChildrenValid()
    }

    /** What `Valid` says of the children: each is valid and owns only what
        this component owns, and distinct children own disjoint parts. */
    ghost predicate ChildrenValid()
      reads this, Repr
      decreases Repr, 0
    {
      this in Repr &&
      (forall c <- children ::
         c in Repr && c.Repr <= Repr && this !in c.Repr && c.Nodes <= Nodes && node !in c.Nodes && c.Valid()) &&
      (forall c, d | c in children && d in children && c != d :: c.Repr !! d.Repr && c.Nodes !! d.Nodes)
    }

    /** The nodes of distinct children are distinct, and none is this
        component's own node: what holds in a valid tree and what lets a
        walk over the children update one child's node at a time. */
    ghost predicate DistinctNodes()
      reads this
    {
      (forall c <- children :: c.node != node) &&
      (forall c, d | c in children && d in children && c != d :: c.node != d.node)
    }

    /** A component that may be appended to this one: it is already a
        child, or it owns nothing this one owns. */
    ghost predicate Appendable(c: Component)
      reads this, Repr, c, c.Repr
    {
      c.Valid() && (c in children || (c.Repr !! Repr && c.Nodes !! Nodes))
    }

    /** `new Component({ tag, className, text }, ...cs)`: a fresh node with
        the given tag, class name and text, which default to `div` and the
        empty string, and `cs` appended in order. */
    constructor (tag: Option<string>, className: Option<string>, text: Option<string>, cs: seq<Component>)
      requires Loose(cs, 0, {}, {})
      modifies set c | c in cs :: c.node
      ensures Valid() && fresh(node) && role == Plain
      ensures node.Props() == NodeProps(tag.GetOr("div"), ClassSet(className.GetOr("")), map[], text.GetOr(""), {})
      ensures node.parent == null
      ensures children == cs
      ensures node.kids == NodesOf(cs)
      ensures Repr == {this} + OwnedBy(cs) && Nodes == {node} + NodesOwnedBy(cs)
      ensures forall c <- cs :: c.Repr == old(c.Repr) && c.Nodes == old(c.Nodes)
      ensures forall c <- cs :: c.node.parent == node
      ensures forall c <- cs :: c.node.Props() == old(c.node.Props()) && c.node.kids == old(c.node.kids)
    {
      var n := CreateNode(tag.GetOr("div"), className.GetOr(""), text.GetOr(""));
      node := n;
      role := Plain;
      children := [];
      Repr := {this};
      Nodes := {n};
      new;
      LeafValid(this);
      assert forall c <- cs :: c.node.Props() == old(c.node.Props()) && c.node.kids == old(c.node.kids);
      assert forall c <- cs :: c.Repr == old(c.Repr) && c.Nodes == old(c.Nodes);
      assert this !in cs && Loose(cs, 0, Repr, Nodes);
      AppendChildren(cs);
      EmptyPrefix(cs);
      EmptyPrefix(NodesOf(cs));
    }

    /** `append(child)`: pushes `c` onto the children and appends its node,
        which the DOM moves here from wherever it was. */
    method Append(c: Component)
      requires Valid() && Appendable(c) && c.node.parent != c.node
      modifies this, node, c.node, c.node.parent
      ensures Valid()
      ensures children == old(children) + [c]
      ensures Repr == old(Repr) + c.Repr && Nodes == old(Nodes) + c.Nodes
      ensures c.node.parent == node
      ensures node.kids == (if old(c.node.parent) == node then Without(old(node.kids), c.node) else old(node.kids)) + [c.node]
      ensures node.Props() == old(node.Props()) && node.parent == old(node.parent)
      ensures c.node.Props() == old(c.node.Props()) && c.node.kids == old(c.node.kids)
      ensures var p := old(c.node.parent);
        p != null && p != node ==>
          p.kids == Without(old(p.kids), c.node) && p.Props() == old(p.Props()) && p.parent == old(p.parent)
    {
      label Start:
      children := children + [c];
      node.Append(c.node);
      Repr := Repr + c.Repr;
      Nodes := Nodes + c.Nodes;
      PushValid@Start(Push(this, c));
    }

    /** One step of `appendChildren`: appends `cs[i]`, whose node is
        detached, and the rest of `cs` stays appendable. */
    method AppendNext(cs: seq<Component>, i: nat, ghost rs: seq<set<Component>>, ghost ms: seq<set<Node>>)
      requires i < |cs| && this !in cs && Valid() && Loose(cs, i, Repr, Nodes) && Kept(cs, rs, ms)
      requires forall j | 0 <= j < i :: cs[j].node.parent == node && cs[j].node != node
      modifies this, node, cs[i].node
      ensures Valid() && Loose(cs, i + 1, Repr, Nodes) && Kept(cs, rs, ms)
      ensures children == old(children) + [cs[i]]
      ensures Repr == old(Repr) + rs[i] && Nodes == old(Nodes) + ms[i]
      ensures node.kids == old(node.kids) + [cs[i].node]
      ensures forall j | 0 <= j < i + 1 :: cs[j].node.parent == node && cs[j].node != node
      ensures forall j | 0 <= j < |cs| :: cs[j].node.Props() == old(cs[j].node.Props()) && cs[j].node.kids == old(cs[j].node.kids)
      ensures node.Props() == old(node.Props()) && node.parent == old(node.parent)
    {
      var c := cs[i];
      ghost var repr := Repr + c.Repr;
      ghost var nodes := Nodes + c.Nodes;
      LooseNext(cs, i, Repr, Nodes);
      Append(c);
      assert forall k | i < k < |cs| :: Detached(cs[k], repr, nodes);
    }

    /** `appendChildren(cs)`: appends each of `cs` in order. This component
        comes to own exactly what it owned and what the components of `cs`
        own. */
    method AppendChildren(cs: seq<Component>)
      requires Valid() && Loose(cs, 0, Repr, Nodes)
      modifies this, node, set c | c in cs :: c.node
      ensures Valid()
      ensures children == old(children) + cs
      ensures node.kids == old(node.kids) + NodesOf(cs)
      ensures node.Props() == old(node.Props()) && node.parent == old(node.parent)
      ensures forall c <- cs :: c.node.parent == node
      ensures forall c <- cs :: c.node.Props() == old(c.node.Props()) && c.node.kids == old(c.node.kids)
      ensures Repr == old(Repr) + OwnedBy(cs) && Nodes == old(Nodes) + NodesOwnedBy(cs)
      ensures forall c <- cs :: c.Repr == old(c.Repr) && c.Nodes == old(c.Nodes)
    {
      ghost var owned, ownedNodes := OwnedBy(cs), NodesOwnedBy(cs);
      ghost var rs, ms := Snapshot(cs);
      AppendEach(cs, owned, ownedNodes, rs, ms);
      OwnedSame(cs);
      OwnedWithin(this, cs);
      Squeeze(old(Repr), Repr, owned);
      Squeeze(old(Nodes), Nodes, ownedNodes);
    }

    /** The loop of `appendChildren`; `owned` and `ownedNodes` bound what
        the components of `cs` own. */
    method AppendEach(cs: seq<Component>, ghost owned: set<Component>, ghost ownedNodes: set<Node>, ghost rs: seq<set<Component>>, ghost ms: seq<set<Node>>)
      requires Valid() && Loose(cs, 0, Repr, Nodes) && Kept(cs, rs, ms)
      requires forall k | 0 <= k < |cs| :: rs[k] <= owned && ms[k] <= ownedNodes
      modifies this, node, set c | c in cs :: c.node
      ensures Valid()
      ensures children == old(children) + cs
      ensures node.kids == old(node.kids) + NodesOf(cs)
      ensures node.Props() == old(node.Props()) && node.parent == old(node.parent)
      ensures forall c <- cs :: c.node.parent == node
      ensures forall c <- cs :: c.node.Props() == old(c.node.Props()) && c.node.kids == old(c.node.kids)
      ensures old(Repr) <= Repr <= old(Repr) + owned && old(Nodes) <= Nodes <= old(Nodes) + ownedNodes
      ensures Kept(cs, rs, ms)
    {
      ghost var ns := NodesOf(cs);
      var i := 0;
      while i < |cs|
        invariant 0 <= i <= |cs| && this !in cs
        invariant Valid()
        invariant children == old(children) + cs[..i]
        invariant node.kids == old(node.kids) + ns[..i]
        invariant forall j | 0 <= j < i :: cs[j].node.parent == node && cs[j].node != node
        invariant forall j | 0 <= j < |cs| :: cs[j].node.Props() == old(cs[j].node.Props()) && cs[j].node.kids == old(cs[j].node.kids)
        invariant node.Props() == old(node.Props()) && node.parent == old(node.parent)
        invariant Loose(cs, i, Repr, Nodes) && Kept(cs, rs, ms)
        invariant old(Repr) <= Repr <= old(Repr) + owned && old(Nodes) <= Nodes <= old(Nodes) + ownedNodes
      {
        PrefixSnoc(old(children), cs, i);
        PrefixSnoc(old(node.kids), ns, i);
        AppendNext(cs, i, rs, ms);
        i := i + 1;
      }
      assert cs[..i] == cs && ns[..i] == ns;
    }

    /** `setTextContent(content)`: the node's text becomes `content` and its
        element children are detached; the children list is left as it is. */
    method SetTextContent(content: string)
      requires node !in node.kids
      modifies node, set k | k in node.kids
      ensures node.Props() == old(node.Props()).(text := content)
      ensures node.parent == old(node.parent) && node.kids == []
      ensures forall k <- old(node.kids) :: k.parent == null && k.Props() == old(k.Props()) && k.kids == old(k.kids)
      ensures children == old(children)
    {
      node.SetTextContent(content);
    }

    /** `setAttribute(attribute, value)`. */
    method SetAttribute(attribute: string, value: string)
      modifies node
      ensures node.Props() == old(node.Props()).(attrs := old(node.attrs)[AsciiLower(attribute) := value])
      ensures node.parent == old(node.parent) && node.kids == old(node.kids)
      ensures children == old(children)
    {
      node.SetAttribute(attribute, value);
    }

    /** `removeAttribute(attribute)`. */
    method RemoveAttribute(attribute: string)
      modifies node
      ensures node.Props() == old(node.Props()).(attrs := old(node.attrs) - {AsciiLower(attribute)})
      ensures node.parent == old(node.parent) && node.kids == old(node.kids)
      ensures children == old(children)
    {
      node.RemoveAttribute(attribute);
    }

    /** `toggleClass(className)`: `classList.toggle`, which throws `err`
        for a malformed class name. */
    method ToggleClass(className: string) returns (err: Option<DomError>)
      modifies node
      ensures err == TokenError(className)
      ensures node.Props() == old(node.Props()).(classes := if err.None? then Toggled(old(node.classes), className) else old(node.classes))
      ensures node.parent == old(node.parent) && node.kids == old(node.kids)
      ensures children == old(children)
    {
      err := node.ToggleClass(className);
    }

    /** `addListener(event, listener, capture)`. */
    method AddListener(event: string, listener: Option<int>, capture: bool)
      modifies node
      ensures node.Props() == old(node.Props()).(listeners := old(node.listeners) + Registered(event, listener, capture))
      ensures node.parent == old(node.parent) && node.kids == old(node.kids)
      ensures children == old(children)
    {
      node.AddEventListener(event, listener, capture);
    }

    /** `removeListener(event, listener, capture)`. */
    method RemoveListener(event: string, listener: Option<int>, capture: bool)
      modifies node
      ensures node.Props() == old(node.Props()).(listeners := old(node.listeners) - Registered(event, listener, capture))
      ensures node.parent == old(node.parent) && node.kids == old(node.kids)
      ensures children == old(children)
    {
      node.RemoveEventListener(event, listener, capture);
    }

    /** The nodes destroying this subtree may change: its own and their
        parents outside it. */
    ghost function Watched(): set<Node>
      reads this, Nodes
    {
      Nodes + OutsideParents(Nodes)
    }

    /** One step of `destroyChildren`: destroys `children[i]`. Starting
        from node states `st` and children lists `cl` with `before`
        destroyed, the nodes of `w` and the children of `r` are then as
        destroying `before` and the `step` components does. */
    method DestroyNext(i: nat, ghost w: set<Node>, ghost r: set<Component>,
                       ghost st: map<Node, NodeState>, ghost cl: map<Component, seq<Component>>, ghost before: set<Component>)
      returns (ghost step: set<Component>)
      requires i < |children| && this in Repr && ChildrenValid()
      requires children[i].Repr <= r && children[i].Nodes <= w
      requires forall n <- children[i].Nodes :: n.parent != n && (n.parent == null || n.parent in w)
      requires States(w) == AfterDestroy(st, before) && ChildLists(r) == Cleared(cl, before) && Closed(cl, before)
      requires forall j | 0 <= j < i :: children[j] in before
      requires this !in before && before <= r && NodeSet(before) <= Nodes && node !in NodeSet(before)
      requires children[i].Repr <= Repr - {this} && r == Repr - {this}
      modifies children[i].Repr, w
      decreases Repr, 0
      ensures unchanged(this) && ChildrenValid()
      ensures forall j | 0 <= j <= i :: children[j] in before + step
      ensures this !in before + step && before + step <= r && NodeSet(before + step) <= Nodes && node !in NodeSet(before + step)
      ensures children[i] in step && step <= old(children[i].Repr) && NodeSet(step) <= old(children[i].Nodes)
      ensures States(w) == AfterDestroy(st, before + step)
      ensures ChildLists(r) == Cleared(cl, before + step) && Closed(cl, before + step)
      ensures forall n <- w :: n.parent == null || n.parent == old(n.parent)
    {
      var c := children[i];
      ghost var subRepr, subNodes := c.Repr, c.Nodes;
      assert subNodes <= Nodes && node !in subNodes && this !in subRepr && subRepr <= r;
      assert forall d <- children | d != c :: d.Repr !! subRepr;
      label Start:
      step := c.DestroyInside(w, r, st, cl, before);
      assert unchanged(this) && unchanged@Start(Repr - subRepr);
      ChildrenStayValid@Start(ChildAt(this, i));
      GoneGrows(before, step, subRepr, subNodes, r, Nodes, this, node);
      PrefixGone(children, i, before, step);
    }

    /** `destroy()` on this component while the destruction of `before`
        is under way: from node states `st` and children lists `cl`, the
        nodes of `w` and the children of `r` are then as destroying
        `before` and the `step` components does. */
    method DestroyInside(ghost w: set<Node>, ghost r: set<Component>, ghost st: map<Node, NodeState>,
                         ghost cl: map<Component, seq<Component>>, ghost before: set<Component>)
      returns (ghost step: set<Component>)
      requires Valid() && forall n <- Nodes :: n.parent != n && (n.parent == null || n.parent in w)
      requires Nodes <= w && Repr <= r
      requires States(w) == AfterDestroy(st, before) && ChildLists(r) == Cleared(cl, before) && Closed(cl, before)
      modifies Repr, w
      decreases Repr, 4
      ensures Valid() && Repr == {this} && Nodes == {node} && children == []
      ensures this in step && step <= old(Repr) && NodeSet(step) <= old(Nodes)
      ensures States(w) == AfterDestroy(st, before + step)
      ensures ChildLists(r) == Cleared(cl, before + step) && Closed(cl, before + step)
      ensures forall n <- w :: n.parent == null || n.parent == old(n.parent)
    {
      ghost var sub, subRepr, subNodes := Watched(), Repr, Nodes;
      assert forall m <- Nodes :: m.parent == null || m.parent in sub;
      label Start:
      step := Destroy();
      assert unchanged@Start(w - sub) && unchanged@Start(r - subRepr) && step <= subRepr;
      ChildGone@Start(ChildStep(w, r, st, cl, before, step, sub, subNodes, subRepr));
    }

    /** The loop of `destroyChildren()`: destroys every child in order.
        `gone` is every component destroyed on the way: the children and,
        through them, all their descendants. */
    method DestroyEach() returns (ghost gone: set<Component>)
      requires this in Repr && node in Nodes && ChildrenValid() && forall n <- Nodes :: n.parent != n
      modifies Repr - {this}, Watched()
      decreases Repr, 1
      ensures this !in gone && gone <= Repr - {this} && NodeSet(gone) <= Nodes && node !in NodeSet(gone)
      ensures forall c <- children :: c in gone
      ensures Closed(old(ChildLists(Repr - {this})), gone)
      ensures ChildLists(Repr - {this}) == Cleared(old(ChildLists(Repr - {this})), gone)
      ensures States(old(Watched())) == AfterDestroy(old(States(Watched())), gone)
    {
      ghost var w, r := Watched(), Repr - {this};
      ghost var st, cl := States(w), ChildLists(r);
      gone := {};
      AfterDestroyNothing(st);
      ClearedNothing(cl);
      var i := 0;
      while i < |children|
        invariant i <= |children| && ChildrenValid()
        invariant forall j | 0 <= j < i :: children[j] in gone
        invariant this !in gone && gone <= r && NodeSet(gone) <= Nodes && node !in NodeSet(gone)
        invariant Closed(cl, gone)
        invariant ChildLists(r) == Cleared(cl, gone)
        invariant States(w) == AfterDestroy(st, gone)
        invariant forall n <- Nodes :: n.parent != n && (n.parent == null || n.parent in w)
      {
        ghost var step := DestroyNext(i, w, r, st, cl, gone);
        gone := gone + step;
        i := i + 1;
      }
    }

    /** `destroyChildren()`: destroys every child in order, then empties the
        children list; this component then owns only itself and its node.
        `gone` is every component destroyed on the way: the children and,
        through them, all their descendants. */
    method DestroyChildren() returns (ghost gone: set<Component>)
      requires Valid() && forall n <- Nodes :: n.parent != n
      modifies Repr, Watched()
      decreases Repr, 2
      ensures Valid() && Repr == {this} && Nodes == {node} && children == []
      ensures this !in gone && gone <= old(Repr) && NodeSet(gone) <= old(Nodes) && node !in NodeSet(gone)
      ensures forall c <- old(children) :: c in gone
      ensures Closed(old(ChildLists(Repr)), gone + {this})
      ensures ChildLists(old(Repr)) == Cleared(old(ChildLists(Repr)), gone + {this})
      ensures States(old(Watched())) == AfterDestroy(old(States(Watched())), gone)
    {
      ghost var w, repr, r := Watched(), Repr, Repr - {this};
      ghost var cl := ChildLists(r);
      ChildListsSplit(repr, this);
      gone := DestroyEach();
      ClosedAdd(cl, this, old(children), gone);
      ClearedAdd(cl, this, old(children), gone);
      label Emptied:
      children := [];
      Repr := {this};
      Nodes := {node};
      LeafValid(this);
      StatesSame@Emptied(w);
      ChildListsSame@Emptied(r);
      ChildListsSplit(repr, this);
    }

    /** The first step of `destroy()`: a Button with a click callback, and
        a Link, unregister their click listener. */
    method Unregister(ghost w: set<Node>)
      requires node in w
      modifies node
      ensures node.parent == old(node.parent)
      ensures States(w) == Unlisten(old(States(w)), this)
    {
      label Start:
      match role {
        case ButtonRole(onClick) =>
          if onClick.Some? {
            RemoveListener("click", onClick, false);
          } else {
            assert node.listeners - {} == node.listeners;
          }
        case LinkRole(onClick) =>
          RemoveListener("click", onClick, false);
        case _ =>
          assert node.listeners - {} == node.listeners;
      }
      StatesPoint@Start(NodePoint(w, node));
    }

    /** The last step of `destroy()`: the node leaves its parent; no
        component's children change. Starting from the node states `st`,
        with the listeners of this component unregistered and the
        components `below` it destroyed, this completes destroying both. */
    method Detach(ghost w: set<Node>, ghost ds: set<Component>, ghost st: map<Node, NodeState>, ghost below: set<Component>)
      requires node in w && node.parent != node && (node.parent == null || node.parent in w)
      requires node in st && node !in NodeSet(below) && st[node].parent != node
      requires States(w) == AfterDestroy(Unlisten(st, this), below)
      modifies node, node.parent
      ensures node.parent == null
      ensures States(w) == AfterDestroy(st, below + {this})
      ensures ChildLists(ds) == old(ChildLists(ds))
    {
      ghost var p := node.parent;
      label Start:
      node.Remove();
      ChildListsSame@Start(ds);
      if p == null {
        StatesPoint@Start(NodePoint(w, node));
      } else {
        StatesPair@Start(NodePair(w, node, p));
      }
      Completes@Start(Last(w, st, below, this));
    }

    /** `destroy()`: the component's own listeners are unregistered, then
        the children are destroyed, then the node is detached. `gone` is
        this component and, through its children, every descendant. */
    method Destroy() returns (ghost gone: set<Component>)
      requires Valid() && forall n <- Nodes :: n.parent != n
      modifies Repr, Watched()
      decreases Repr, 3
      ensures Valid() && Repr == {this} && Nodes == {node} && children == [] && node.parent == null
      ensures this in gone && gone <= old(Repr) && NodeSet(gone) <= old(Nodes)
      ensures Closed(old(ChildLists(Repr)), gone)
      ensures ChildLists(old(Repr)) == Cleared(old(ChildLists(Repr)), gone)
      ensures States(old(Watched())) == AfterDestroy(old(States(Watched())), gone)
    {
      ghost var w, repr, nodes, st := Watched(), Repr, Nodes, States(Watched());
      assert st[node] == node.State();
      label Start:
      Unregister(w);
      ChildListsSame@Start(repr);
      assert Watched() == w && Nodes == nodes;
      label Unlistened:
      ghost var below := DestroyChildren();
      ParentsCleared@Unlistened(Destruction(w, below));
      NodeSetAdd(below, this, nodes);
      Detach(w, repr, st, below);
      LeafValid(this);
      gone := below + {this};
    }

    /** `destroy()` on a component it has already destroyed: with no
        children, no parent and none of its listeners left, the call
        changes nothing. */
    method DestroyAgain()
      requires Valid() && Repr == {this} && Nodes == {node} && children == [] && node.parent == null
      requires node.listeners !! OwnListeners(role)
      modifies this, node
      ensures Valid() && Repr == {this} && Nodes == {node} && children == []
      ensures node.State() == old(node.State())
    {
      ghost var st := States({node});
      assert st[node] == node.State();
      assert OutsideParents(Nodes) == {};
      assert Watched() == {node};
      ghost var again := Destroy();
      assert again == {this};
      AfterDestroyDone(st, this);
      assert States({node}) == st;
      assert States({node})[node] == node.State();
    }

    /** `destroy()` called twice: the two calls together do what the
        first does. */
    method DestroyTwice() returns (ghost gone: set<Component>)
      requires Valid() && forall n <- Nodes :: n.parent != n
      modifies Repr, Watched()
      ensures Valid() && Repr == {this} && Nodes == {node} && children == [] && node.parent == null
      ensures States(old(Watched())) == AfterDestroy(old(States(Watched())), gone)
    {
      ghost var w, st := Watched(), States(Watched());
      gone := Destroy();
      AfterDestroyEffect(st, gone);
      ghost var once := States(w);
      assert once == AfterDestroy(st, gone) && once[node] == node.State();
      label Once:
      DestroyAgain();
      StatesPoint@Once(NodePoint(w, node));
      UpdateSame(once, node);
    }

    /** `new Button({ className, text, onClick })` (src/button.js): a
        `button` node, with a click listener when a callback is given. */
    constructor Button(className: Option<string>, text: Option<string>, onClick: Option<int>)
      ensures Valid() && fresh(node) && role == ButtonRole(onClick)
      ensures Repr == {this} && Nodes == {node} && children == []
      ensures node.Props() == NodeProps("button", ClassSet(className.GetOr("")), map[], text.GetOr(""), Registered("click", onClick, false))
      ensures node.parent == null && node.kids == []
    {
      var n := CreateNode("button", className.GetOr(""), text.GetOr(""));
      node := n;
      role := ButtonRole(onClick);
      children := [];
      Repr := {this};
      Nodes := {n};
      new;
      if onClick.Some? {
        AddListener("click", onClick, false);
      }
    }

    /** `new Link({ className, text, href, onClick })`: an `a` node with the
        `href` attribute, and a click listener when a callback is given. */
    constructor Link(className: Option<string>, text: Option<string>, href: string, onClick: Option<int>)
      ensures Valid() && fresh(node) && role == LinkRole(onClick)
      ensures Repr == {this} && Nodes == {node} && children == []
      ensures node.Props() == NodeProps("a", ClassSet(className.GetOr("")), map["href" := href], text.GetOr(""), Registered("click", onClick, false))
      ensures node.parent == null && node.kids == []
    {
      var n := CreateNode("a", className.GetOr(""), text.GetOr(""));
      node := n;
      role := LinkRole(onClick);
      children := [];
      Repr := {this};
      Nodes := {n};
      new;
      HrefNames();
      SetAttribute("href", href);
      if onClick.Some? {
        AddListener("click", onClick, false);
      }
    }

    /** `link.setHref(href)`. */
    method SetHref(href: string)
      requires role.LinkRole?
      modifies node
      ensures node.Props() == old(node.Props()).(attrs := old(node.attrs)["href" := href])
      ensures node.parent == old(node.parent) && node.kids == old(node.kids)
    {
      HrefNames();
      SetAttribute("href", href);
    }

    /** `new MenuItem({ className, text, href, onItemClicked })`: an `li`
        node holding one Link of class `menu__link`. The link's callback,
        which calls `onItemClicked` with this item, has the id `clickId`. */
    constructor MenuItem(className: Option<string>, text: Option<string>, href: string, clickId: int)
      ensures Valid() && fresh(node) && role == MenuItemRole
      ensures |children| == 1 && fresh(children[0]) && fresh(children[0].node)
      ensures Repr == {this, children[0]} && Nodes == {node, children[0].node} && node != children[0].node
      ensures node.Props() == NodeProps("li", ClassSet(className.GetOr("")), map[], "", {})
      ensures node.parent == null && node.kids == [children[0].node]
      ensures children[0].role == LinkRole(Some(clickId)) && children[0].children == []
      ensures children[0].node.Props() ==
        NodeProps("a", ClassSet(LinkClass), map["href" := href], text.GetOr(""), {Listener("click", clickId, false)})
      ensures children[0].node.parent == node
    {
      var n := CreateNode("li", className.GetOr(""), "");
      node := n;
      role := MenuItemRole;
      children := [];
      Repr := {this};
      Nodes := {n};
      new;
      var link := new Component.Link(Some(LinkClass), text, href, Some(clickId));
      Append(link);
    }

    /** `new Menu({ className, items })`: a `nav` node with `items`
        appended in order. */
    constructor Menu(className: Option<string>, items: seq<Component>)
      requires Loose(items, 0, {}, {})
      modifies set c | c in items :: c.node
      ensures Valid() && fresh(node) && role == MenuRole
      ensures node.Props() == NodeProps("nav", ClassSet(className.GetOr("")), map[], "", {})
      ensures node.parent == null
      ensures children == items && node.kids == NodesOf(items)
      ensures Repr == {this} + OwnedBy(items) && Nodes == {node} + NodesOwnedBy(items)
      ensures forall c <- items :: c.Repr == old(c.Repr) && c.Nodes == old(c.Nodes)
      ensures forall c <- items ::
        c.node.parent == node && c.node.Props() == old(c.node.Props()) && c.node.kids == old(c.node.kids)
    {
      var n := CreateNode("nav", className.GetOr(""), "");
      node := n;
      role := MenuRole;
      children := [];
      Repr := {this};
      Nodes := {n};
      new;
      LeafValid(this);
      assert forall c <- items :: c.node.Props() == old(c.node.Props()) && c.node.kids == old(c.node.kids);
      assert forall c <- items :: c.Repr == old(c.Repr) && c.Nodes == old(c.Nodes);
      assert this !in items && Loose(items, 0, Repr, Nodes);
      AppendChildren(items);
      EmptyPrefix(items);
      EmptyPrefix(NodesOf(items));
    }

    /** `isActive`: only a MenuItem has the getter; on any other component
        it is undefined, which the menu reads as false. */
    predicate IsActive()
      reads node
    {
      role.MenuItemRole? && ActiveClass in node.classes
    }

    /** `addActiveClass()`: toggles the active class. */
    method AddActiveClass()
      requires role.MenuItemRole?
      modifies node
      ensures node.Props() == old(node.Props()).(classes := Toggled(old(node.classes), ActiveClass))
      ensures node.parent == old(node.parent) && node.kids == old(node.kids)
      ensures IsActive() <==> !old(IsActive())
    {
      ActiveClassIsToken();
      var _ := ToggleClass(ActiveClass);
    }

    /** `removeActiveClass()`: toggles the active class too. */
    method RemoveActiveClass()
      requires role.MenuItemRole?
      modifies node
      ensures node.Props() == old(node.Props()).(classes := Toggled(old(node.classes), ActiveClass))
      ensures node.parent == old(node.parent) && node.kids == old(node.kids)
      ensures IsActive() <==> !old(IsActive())
    {
      ActiveClassIsToken();
      var _ := ToggleClass(ActiveClass);
    }

    /** `menu.toggleActiveItem(item)`: visits the children in order,
        activating `item` when it is not active and deactivating every other
        active child. A child that is not a MenuItem is never active and is
        left alone; `item`, when it is a child, must be a MenuItem, since
        otherwise `addActiveClass` is not a function. */
    method ToggleActiveItem(item: Component)
      requires DistinctNodes() && (item in children ==> item.role.MenuItemRole?)
      modifies set c | c in children :: c.node
      ensures forall c <- children :: c.IsActive() <==> c == item
      ensures forall c <- children ::
        c.node.Props() == old(c.node.Props()).(classes := if c.role.MenuItemRole? then Retarget(old(c.node.classes), c == item) else old(c.node.classes))
      ensures forall c <- children :: c.node.parent == old(c.node.parent) && c.node.kids == old(c.node.kids)
      ensures node.Props() == old(node.Props()) && node.parent == old(node.parent) && node.kids == old(node.kids)
    {
      var i := 0;
      while i < |children|
        invariant 0 <= i <= |children|
        invariant forall c <- children ::
          c.node.Props() == old(c.node.Props()).(classes := if c in children[..i] && c.role.MenuItemRole? then Retarget(old(c.node.classes), c == item) else old(c.node.classes))
        invariant forall c <- children :: c.node.parent == old(c.node.parent) && c.node.kids == old(c.node.kids)
      {
        var child := children[i];
        assert children[..i + 1] == children[..i] + [child];
        if child == item && !child.IsActive() {
          child.AddActiveClass();
        } else if child != item && child.IsActive() {
          child.RemoveActiveClass();
        }
        i := i + 1;
      }
      assert children[..|children|] == children;
    }
  }

  /** The `href` of each entry of the demo's menu, in order. */
  const MenuHrefs: seq<string> := ["#", "#about", "#contact"]

  /** The label of each entry of the demo's menu, in order. */
  const MenuTexts: seq<string> := ["Главная", "О нас", "Контакты"]

  /** `item` is the `k`-th entry of the demo's menu: a MenuItem holding
      one Link, whose click callback has id `k`. */
  ghost predicate HoldsLink(item: Component, k: int)
    reads item, if |item.children| == 1 then {item.children[0]} else {}
  {
    0 <= k < |MenuHrefs| && item.role == MenuItemRole && |item.children| == 1 &&
    item.children[0].role == LinkRole(Some(k))
  }

  /** `n` is the node of the `k`-th entry's Link: an `a` of class
      `menu__link` pointing at the entry's `href`, labelled with the
      entry's text and listening for clicks with the callback of id `k`. */
  ghost predicate LinksTo(n: Node, k: int)
    reads n
  {
    0 <= k < |MenuHrefs| &&
    n.Props() == NodeProps("a", {LinkClass}, map["href" := MenuHrefs[k]], MenuTexts[k], {Listener("click", k, false)})
  }

  /** `item` is the `k`-th entry of the demo's menu as `map` builds it:
      an `li` of class `menu__item` holding one Link to the entry's `href`,
      owning exactly itself, the link and their two nodes. */
  ghost predicate IsEntry(item: Component, k: int)
    reads item, item.node, if |item.children| == 1 then {item.children[0], item.children[0].node} else {}
  {
    HoldsLink(item, k) &&
    var link := item.children[0];
    item.Repr == {item, link} && item.Nodes == {item.node, link.node} && item.node != link.node &&
    item.node.classes == {ItemClass} && LinksTo(link.node, k)
  }

  /** `items` are the first `|items|` entries of the demo's menu, in
      order, each detached and owning components and nodes of its own. */
  ghost predicate Entries(items: seq<Component>)
    reads (set c | c in items), (set c, d | c in items && d in c.Repr :: d), (set c | c in items :: c.node),
      (set c | c in items && |c.children| == 1 :: c.children[0]),
      (set c | c in items && |c.children| == 1 :: c.children[0].node)
  {
    |items| <= |MenuHrefs| && Loose(items, 0, {}, {}) &&
    forall k | 0 <= k < |items| :: IsEntry(items[k], k)
  }

  /** One more entry, owning nothing the others own, extends the entries. */
  lemma EntriesSnoc(items: seq<Component>, item: Component)
    requires Entries(items) && |items| < |MenuHrefs| && IsEntry(item, |items|) && Detached(item, {}, {})
    requires forall c <- items :: c.Repr !! item.Repr && c.Nodes !! item.Nodes
    ensures Entries(items + [item])
  {
    var s := items + [item];
    assert forall k | 0 <= k < |items| :: s[k] == items[k];
    assert s[|items|] == item;
  }

  /** Distinct entries are distinct components with distinct nodes, and no
      link's node is the node of an entry. */
  lemma EntriesDistinct(items: seq<Component>)
    requires Entries(items)
    ensures forall j, k | 0 <= j < k < |items| :: items[j] != items[k] && items[j].node != items[k].node
    ensures forall j, k | 0 <= j < |items| && 0 <= k < |items| ::
      |items[j].children| == 1 && items[j].children[0].node != items[k].node
  {
    forall j, k | 0 <= j < |items| && 0 <= k < |items|
      ensures |items[j].children| == 1 && items[j].children[0].node != items[k].node
      ensures j < k ==> items[j] != items[k] && items[j].node != items[k].node
    {
      assert IsEntry(items[j], j) && IsEntry(items[k], k);
    }
  }

  /** `m` is the menu the demo application builds: a `nav` of class
      `nav nav--main` whose children are the entries of the menu data in
      order, their nodes its kids in the same order, each an `li` of class
      `menu__item` holding the link whose click callback has the entry's
      id. */
  ghost predicate IsDemoMenu(m: Component)
    reads m, m.node, set c | c in m.children, set c | c in m.children :: c.node,
      set c | c in m.children && |c.children| == 1 :: c.children[0]
  {
    m.node.Props() == NodeProps("nav", {"nav", "nav--main"}, map[], "", {}) &&
    m.node.kids == NodesOf(m.children) && |m.children| == |MenuHrefs| &&
    forall k | 0 <= k < |m.children| ::
      m.children[k].node.classes == {ItemClass} && m.children[k].node.parent == m.node &&
      HoldsLink(m.children[k], k)
  }

  /** The demo application (examples/index.js): a menu of three items,
      where a click on the link of item `k` runs the callback with id `k`,
      which makes that item the active one. */
  class App {
    var menu: Component

    ghost predicate Valid()
      reads this, menu, set c | c in menu.children, set c | c in menu.children && |c.children| == 1 :: c.children[0]
    {
      menu.role == MenuRole && |menu.children| == |MenuHrefs| && menu.DistinctNodes() &&
      (forall j, k | 0 <= j < k < |menu.children| :: menu.children[j] != menu.children[k]) &&
      (forall k | 0 <= k < |menu.children| :: HoldsLink(menu.children[k], k))
    }

    /** The MenuItem the callback of `menuItems.map` builds for the `k`-th
        entry of the menu data: of class `menu__item`, with the entry's
        text and `href`, and a link whose click callback has id `k`. */
    static method Entry(k: nat) returns (item: Component)
      requires k < |MenuHrefs|
      ensures fresh(item.Repr) && fresh(item.Nodes)
      ensures IsEntry(item, k) && Detached(item, {}, {})
    {
      ItemClassSet();
      LinkClassSet();
      item := new Component.MenuItem(Some(ItemClass), Some(MenuTexts[k]), MenuHrefs[k], k);
    }

    /** `menuItems.map(...)`: one fresh MenuItem of class `menu__item`
        per entry of the menu data, in order. */
    static method MenuItems() returns (items: seq<Component>)
      ensures |items| == |MenuHrefs| && Entries(items)
      ensures forall k | 0 <= k < |items| :: fresh(items[k].node)
    {
      items := [];
      for k := 0 to |MenuHrefs|
        invariant |items| == k && Entries(items)
        invariant forall j | 0 <= j < k :: fresh(items[j].node)
      {
        var item := Entry(k);
        assert forall c <- items :: c.Repr !! item.Repr && c.Nodes !! item.Nodes;
        EntriesSnoc(items, item);
        items := items + [item];
      }
    }

    /** `new Menu({ className: 'nav nav--main', items })` over the
        items `menuItems.map(...)` builds. */
    static method DemoMenu() returns (m: Component)
      ensures fresh(m) && fresh(m.node) && m.role == MenuRole && IsDemoMenu(m)
      ensures m.DistinctNodes() && forall j, k | 0 <= j < k < |m.children| :: m.children[j] != m.children[k]
    {
      var items := MenuItems();
      EntriesDistinct(items);
      m := MainNav(items);
    }

    /** The `new Menu(...)` step of `DemoMenu`, given what it needs of the
        items: each holds the link of its position, with class `menu__item`,
        and distinct items have distinct nodes. */
    static method MainNav(items: seq<Component>) returns (m: Component)
      requires Loose(items, 0, {}, {}) && |items| == |MenuHrefs|
      requires forall k | 0 <= k < |items| :: HoldsLink(items[k], k) && items[k].node.classes == {ItemClass}
      requires forall j, k | 0 <= j < k < |items| :: items[j] != items[k] && items[j].node != items[k].node
      modifies set c | c in items :: c.node
      ensures fresh(m) && fresh(m.node) && m.role == MenuRole && IsDemoMenu(m)
      ensures m.DistinctNodes() && forall j, k | 0 <= j < k < |m.children| :: m.children[j] != m.children[k]
    {
      MainNavClassSet();
      m := new Component.Menu(Some("nav nav--main"), items);
    }

    /** `new App()`: builds the menu items and a Menu of class
        `nav nav--main` holding them. */
    constructor ()
      ensures Valid() && fresh(menu) && fresh(menu.node) && IsDemoMenu(menu)
    {
      var m := DemoMenu();
      menu := m;
    }

    /** A click on the link whose callback has id `id`: the callback calls
        `toggleActiveItem` on the item holding that link. An id no link
        registered runs nothing. */
    method Click(id: int)
      requires Valid()
      modifies set c | c in menu.children :: c.node
      ensures Valid()
      ensures 0 <= id < |menu.children| ==> forall k | 0 <= k < |menu.children| :: menu.children[k].IsActive() <==> k == id
      ensures forall c <- menu.children :: c.node.classes - {ActiveClass} == old(c.node.classes) - {ActiveClass}
      ensures forall c <- menu.children ::
        c.node.Props() == old(c.node.Props()).(classes := c.node.classes) &&
        c.node.parent == old(c.node.parent) && c.node.kids == old(c.node.kids)
      ensures !(0 <= id < |menu.children|) ==> forall c <- menu.children :: c.node.classes == old(c.node.classes)
    {
      if 0 <= id < |menu.children| {
        menu.ToggleActiveItem(menu.children[id]);
      }
    }
  }

  // ---------------------------------------------------------------------
  // Scenarios: the constructor and `appendChildren` composed
  // ---------------------------------------------------------------------

  /** A component built by the constructor around a fresh leaf: it owns
      exactly the two of them. */
  method Wrapped() returns (inner: Component, leaf: Component)
    ensures fresh(inner) && fresh(inner.node) && fresh(leaf) && fresh(leaf.node)
    ensures inner.Valid() && inner.children == [leaf] && inner.node.kids == [leaf.node]
    ensures leaf.node.parent == inner.node && inner.node.parent == null
    ensures inner.Repr == {inner, leaf} && inner.Nodes == {inner.node, leaf.node}
  {
    leaf := new Component(None, None, Some("leaf"), []);
    assert leaf.Repr == {leaf} && leaf.Nodes == {leaf.node};
    inner := new Component(None, None, None, [leaf]);
    OwnedByOne(leaf);
  }

  /** `appendChildren([inner])` on a component built after `inner`, which
      was built around `leaf`: the outer component then owns all three,
      and the inner node hangs below the outer one. */
  method Nested() returns (outer: Component, inner: Component, leaf: Component)
    ensures outer.Valid() && outer.children == [inner] && outer.node.kids == [inner.node]
    ensures inner.node.parent == outer.node && outer.node.parent == null
    ensures outer.Repr == {outer, inner, leaf} && outer.Nodes == {outer.node, inner.node, leaf.node}
  {
    inner, leaf := Wrapped();
    outer := new Component(None, None, None, []);
    assert outer.Repr == {outer} && outer.Nodes == {outer.node};
    assert Loose([inner], 0, outer.Repr, outer.Nodes);
    outer.AppendChildren([inner]);
    OwnedByOne(inner);
  }

  // ---------------------------------------------------------------------
  // Verification aids
  // ---------------------------------------------------------------------
  // The lemmas below model nothing of the library. Each spells out one
  // small step that Dafny would otherwise have to find inside a large
  // proof context; calling it there keeps those proofs within the
  // solver's budget. The bundle datatypes of the two-state lemmas serve
  // the same purpose (see the comment before `Push`).

  /** Appending to an empty sequence gives the appended one. */
  lemma EmptyPrefix<T>(s: seq<T>)
    ensures [] + s == s
  {
  }

  /** `a` followed by a prefix of `s` and the next element of `s` is `a`
      followed by the longer prefix; the longest prefix is `s` itself. */
  lemma PrefixSnoc<T>(a: seq<T>, s: seq<T>, i: int)
    requires 0 <= i < |s|
    ensures (a + s[..i]) + [s[i]] == a + s[..i + 1]
    ensures i + 1 == |s| ==> a + s[..i + 1] == a + s
  {
    assert s[..i + 1] == s[..i] + [s[i]];
  }

  /** What a single component owns is what it owns by itself. */
  lemma OwnedByOne(c: Component)
    ensures OwnedBy([c]) == c.Repr && NodesOwnedBy([c]) == c.Nodes
  {
    assert [c][..0] == [];
  }

  /** A set between `lo` and `lo + extra` that holds `extra` is `lo + extra`. */
  lemma Squeeze<T>(lo: set<T>, r: set<T>, extra: set<T>)
    requires lo <= r <= lo + extra && extra <= r
    ensures r == lo + extra
  {
  }

  /** The components destroyed so far, `before`, and those of one more
      child, `step`, which lie within what the child owned (`owned`,
      `nodes`): together they stay within `r` and `ns`, and away from the
      parent `p` and its node `n`. */
  lemma GoneGrows(before: set<Component>, step: set<Component>, owned: set<Component>, nodes: set<Node>,
                  r: set<Component>, ns: set<Node>, p: Component, n: Node)
    requires p !in before && before <= r && NodeSet(before) <= ns && n !in NodeSet(before)
    requires step <= owned && NodeSet(step) <= nodes
    requires p !in owned && owned <= r && nodes <= ns && n !in nodes
    ensures p !in before + step && before + step <= r && NodeSet(before + step) <= ns && n !in NodeSet(before + step)
  {
    NodeSetUnion(before, step);
  }

  /** Once `cs[i]` is destroyed too, every one of `cs[..i + 1]` is. */
  lemma PrefixGone(cs: seq<Component>, i: nat, before: set<Component>, step: set<Component>)
    requires i < |cs| && cs[i] in step && forall j | 0 <= j < i :: cs[j] in before
    ensures forall j | 0 <= j <= i :: cs[j] in before + step
  {
  }

  /** Adding a component whose node is in `ns` keeps the nodes within `ns`. */
  lemma NodeSetAdd(ds: set<Component>, c: Component, ns: set<Node>)
    requires NodeSet(ds) <= ns && c.node in ns
    ensures NodeSet(ds + {c}) <= ns
  {
  }

  /** Updating a key of `m` to the value it has leaves `m` as it is. */
  lemma UpdateSame<K, V>(m: map<K, V>, k: K)
    requires k in m
    ensures m[k := m[k]] == m
  {
  }
}

=== FILE: dom.dfy ===
/** An abstract model of the part of the DOM Standard the components rely on:
    element creation, the `className` and `textContent` setters, the
    `classList` token set (`add`, `toggle`, `contains`), attributes, the
    `append` and `remove` tree mutations, and event listener registration.
    Rendering, layout and real event dispatch are not modelled. */
module Dom {
  import opened Wrappers

  /** An event listener as an event target matches it when removing one
      (section 2.7 of the DOM Standard): event type, callback and capture.
      A callback is identified by an integer id, since closures cannot be
      compared; the options object is reduced to its capture flag. */
  datatype Listener = Listener(event: string, callback: int, capture: bool)

  /** The exceptions a token list raises for a malformed token. */
  datatype DomError = SyntaxError | InvalidCharacterError

  /** Everything about a node except its place in the tree. */
  datatype Props = NodeProps(
    tag: string,
    classes: set<string>,
    attrs: map<string, string>,
    text: string,
    listeners: set<Listener>)

  // ---------------------------------------------------------------------
  // Tokens (section 7.1 of the DOM Standard, DOMTokenList)
  // ---------------------------------------------------------------------

  /** ASCII whitespace as the Infra Standard defines it: tab, line feed,
      form feed, carriage return and space. */
  predicate IsAsciiWhitespace(c: char) {
    c == '\t' || c == '\n' || c == '\U{000C}' || c == '\r' || c == ' '
  }

  predicate NoWhitespace(s: string) {
    forall i :: 0 <= i < |s| ==> !IsAsciiWhitespace(s[i])
  }

  /** A string `classList.add` and `classList.toggle` accept as a token. */
  predicate IsToken(t: string) {
    t != [] && NoWhitespace(t)
  }

  /** The exception `add` or `toggle` throws for the token `t`, if any:
      a SyntaxError for the empty string, an InvalidCharacterError for a
      token containing ASCII whitespace. */
  function TokenError(t: string): (r: Option<DomError>)
    ensures r.None? <==> IsToken(t)
    ensures r == Some(SyntaxError) <==> t == []
  {
    if t == [] then Some(SyntaxError)
    else if exists i :: 0 <= i < |t| && IsAsciiWhitespace(t[i]) then Some(InvalidCharacterError)
    else None
  }

  /** The exception `add(...tokens)` throws: that of the first malformed token. */
  function FirstTokenError(tokens: seq<string>): (r: Option<DomError>)
    ensures r.None? <==> forall i :: 0 <= i < |tokens| ==> IsToken(tokens[i])
    ensures r.Some? ==> exists i :: 0 <= i < |tokens| && TokenError(tokens[i]) == r &&
                                   forall j :: 0 <= j < i ==> IsToken(tokens[j])
  {
    if tokens == [] then None
    else if TokenError(tokens[0]).Some? then TokenError(tokens[0])
    else FirstTokenError(tokens[1..])
  }

  /** `s[i..j]` is one of the tokens the ordered set parser splits `s`
      into: a maximal run of characters that are not ASCII whitespace. */
  predicate IsTokenSpan(s: string, i: int, j: int) {
    0 <= i < j <= |s| && NoWhitespace(s[i..j]) &&
    (i == 0 || IsAsciiWhitespace(s[i - 1])) && (j == |s| || IsAsciiWhitespace(s[j]))
  }

  /** The class set of an element whose `class` attribute is `className`:
      its tokens, split on ASCII whitespace, duplicates collapsed. */
  function ClassSet(className: string): (r: set<string>)
    ensures forall t :: t in r ==> IsToken(t)
    ensures forall i, j :: IsTokenSpan(className, i, j) ==> className[i..j] in r
    ensures forall t :: t in r ==> exists i, j :: IsTokenSpan(className, i, j) && t == className[i..j]
    ensures className == [] ==> r == {}
  {
    set i, j | 0 <= i < j <= |className| && IsTokenSpan(className, i, j) :: className[i..j]
  }

  /** A token of `s` stays a token when `s` is followed by a space. */
  lemma SpanBeforeSpace(s: string, t: string, i: int, j: int)
    requires IsTokenSpan(s, i, j)
    ensures IsTokenSpan(s + [' '] + t, i, j) && (s + [' '] + t)[i..j] == s[i..j]
  {
    var u := s + [' '] + t;
    assert u[i..j] == s[i..j];
    assert j == |s| || u[j] == s[j];
    assert i == 0 || u[i - 1] == s[i - 1];
  }

  /** A token of `t` stays a token when `t` is preceded by a space. */
  lemma SpanAfterSpace(s: string, t: string, i: int, j: int)
    requires IsTokenSpan(t, i, j)
    ensures IsTokenSpan(s + [' '] + t, i + |s| + 1, j + |s| + 1)
    ensures (s + [' '] + t)[i + |s| + 1..j + |s| + 1] == t[i..j]
  {
    var u := s + [' '] + t;
    var n := |s|;
    assert u[i + n + 1..j + n + 1] == t[i..j];
    assert j == |t| || u[j + n + 1] == t[j];
    assert u[i + n] == if i == 0 then ' ' else t[i - 1];
  }

  /** Every token of `s + " " + t` lies within `s` or within `t`. */
  lemma SpanAroundSpace(s: string, t: string, i: int, j: int)
    requires IsTokenSpan(s + [' '] + t, i, j)
    ensures (j <= |s| && IsTokenSpan(s, i, j) && (s + [' '] + t)[i..j] == s[i..j]) ||
            (i > |s| && IsTokenSpan(t, i - |s| - 1, j - |s| - 1) &&
             (s + [' '] + t)[i..j] == t[i - |s| - 1..j - |s| - 1])
  {
    var u := s + [' '] + t;
    var n := |s|;
    if j <= n {
      assert u[i..j] == s[i..j];
      assert j == n || u[j] == s[j];
      assert i == 0 || u[i - 1] == s[i - 1];
    } else {
      forall k | i <= k < j ensures !IsAsciiWhitespace(u[k]) {
        assert u[i..j][k - i] == u[k];
      }
      assert IsAsciiWhitespace(u[n]);
      assert u[i..j] == t[i - n - 1..j - n - 1];
      assert j == |u| || u[j] == t[j - n - 1];
      assert u[i - 1] == if i == n + 1 then ' ' else t[i - n - 2];
    }
  }

  /** A space never belongs to a token, so the class set of two strings
      joined by a space is the union of their class sets. */
  lemma ClassSetSplit(s: string, t: string)
    ensures ClassSet(s + [' '] + t) == ClassSet(s) + ClassSet(t)
  {
    var u := s + [' '] + t;
    forall i, j | IsTokenSpan(s, i, j) ensures s[i..j] in ClassSet(u) {
      SpanBeforeSpace(s, t, i, j);
    }
    forall i, j | IsTokenSpan(t, i, j) ensures t[i..j] in ClassSet(u) {
      SpanAfterSpace(s, t, i, j);
    }
    forall w | w in ClassSet(u) ensures w in ClassSet(s) + ClassSet(t) {
      var i, j :| IsTokenSpan(u, i, j) && w == u[i..j];
      SpanAroundSpace(s, t, i, j);
    }
  }

  /** The tokens joined by single spaces, as the `DOMTokenList` serializer
      writes a class set back into the `class` attribute. */
  function Serialized(tokens: seq<string>): (r: string)
    ensures |tokens| == 1 ==> r == tokens[0]
  {
    if |tokens| == 0 then ""
    else if |tokens| == 1 then tokens[0]
    else tokens[0] + [' '] + Serialized(tokens[1..])
  }

  /** Parsing a serialized list of well-formed tokens gives back exactly
      those tokens, as a set. */
  lemma {:induction false} ClassSetOfSerialized(tokens: seq<string>)
    requires forall i :: 0 <= i < |tokens| ==> IsToken(tokens[i])
    ensures ClassSet(Serialized(tokens)) == set t | t in tokens
  {
    if |tokens| == 1 {
      ClassSetOfToken(tokens[0]);
    } else if |tokens| > 1 {
      ClassSetOfToken(tokens[0]);
      ClassSetSplit(tokens[0], Serialized(tokens[1..]));
      ClassSetOfSerialized(tokens[1..]);
      assert tokens == [tokens[0]] + tokens[1..];
    }
  }

  /** A `className` that is a single token denotes exactly that class. */
  lemma ClassSetOfToken(t: string)
    requires IsToken(t)
    ensures ClassSet(t) == {t}
  {
    assert IsTokenSpan(t, 0, |t|) && t[0..|t|] == t;
    forall u | u in ClassSet(t) ensures u == t {
      var i, j :| IsTokenSpan(t, i, j) && u == t[i..j];
    }
  }

  /** The token set after `toggle(token)` with a well-formed token. */
  function Toggled(classes: set<string>, token: string): (r: set<string>)
    ensures token in r <==> token !in classes
    ensures r - {token} == classes - {token}
  {
    if token in classes then classes - {token} else classes + {token}
  }

  /** Toggling a class twice restores the class set. */
  lemma ToggledTwice(classes: set<string>, token: string)
    ensures Toggled(Toggled(classes, token), token) == classes
  {
  }

  // ---------------------------------------------------------------------
  // Attribute names (section 4.9 of the DOM Standard, Element)
  // ---------------------------------------------------------------------

  /** An ASCII upper alpha: `A` to `Z`. */
  predicate IsUpper(c: char) {
    'A' <= c <= 'Z'
  }

  /** `s` in ASCII lowercase: the name under which an element of the HTML
      namespace, in an HTML document, sets, reads and removes an
      attribute. Each ASCII upper alpha becomes its lower alpha; every
      other character stays. */
  function AsciiLower(s: string): (r: string)
    ensures |r| == |s|
    ensures forall i | 0 <= i < |s| ::
      if IsUpper(s[i]) then r[i] as int == s[i] as int + 32 else r[i] == s[i]
    ensures forall i | 0 <= i < |r| :: !IsUpper(r[i])
  {
    if s == [] then []
    else [if IsUpper(s[0]) then (s[0] as int + 32) as char else s[0]] + AsciiLower(s[1..])
  }

  /** Lowercasing a name that has no ASCII upper alpha keeps it. */
  lemma {:induction false} AsciiLowerKeepsLower(s: string)
    requires forall i | 0 <= i < |s| :: !IsUpper(s[i])
    ensures AsciiLower(s) == s
  {
    if s != [] {
      AsciiLowerKeepsLower(s[1..]);
    }
  }

  /** Lowercasing twice is lowercasing once. */
  lemma AsciiLowerIdempotent(s: string)
    ensures AsciiLower(AsciiLower(s)) == AsciiLower(s)
  {
    AsciiLowerKeepsLower(AsciiLower(s));
  }

  /** Names that differ only in the case of ASCII letters name the same
      attribute: `HREF` and `href` both become `href`. */
  lemma HrefNames()
    ensures AsciiLower("HREF") == AsciiLower("href") == "href"
  {
    AsciiLowerKeepsLower("href");
  }

  /** `removeAttribute(removed)` right after `setAttribute(written, value)`,
      with names equal up to ASCII case, leaves the attributes as the
      removal alone does. */
  lemma RemoveAfterSet(attrs: map<string, string>, written: string, removed: string, value: string)
    requires AsciiLower(written) == AsciiLower(removed)
    ensures attrs[AsciiLower(written) := value] - {AsciiLower(removed)} == attrs - {AsciiLower(removed)}
  {
  }

  // ---------------------------------------------------------------------
  // Children lists
  // ---------------------------------------------------------------------

  /** `s` with every occurrence of `x` removed, the rest in order. */
  function Without<T(==)>(s: seq<T>, x: T): (r: seq<T>)
    ensures forall y <- r :: y in s && y != x
    ensures forall y <- s :: y != x ==> y in r
    ensures multiset(r) == multiset(s)[x := 0]
    ensures x !in s ==> r == s
  {
    if s == [] then []
    else
      assert s == [s[0]] + s[1..];
      if s[0] == x then Without(s[1..], x)
      else [s[0]] + Without(s[1..], x)
  }

  /** Removing from a concatenation removes from each part, keeping the
      order of what remains. */
  lemma {:induction false} WithoutAppend<T>(s: seq<T>, t: seq<T>, x: T)
    ensures Without(s + t, x) == Without(s, x) + Without(t, x)
  {
    if s == [] {
      assert s + t == t;
    } else {
      assert (s + t)[0] == s[0] && (s + t)[1..] == s[1..] + t;
      WithoutAppend(s[1..], t, x);
    }
  }

  /** `s` without the elements of `xs`, the rest in order. */
  function Except<T(==)>(s: seq<T>, xs: set<T>): (r: seq<T>)
    ensures forall y <- r :: y in s && y !in xs
    ensures forall y <- s :: y !in xs ==> y in r
    ensures forall y <- s :: multiset(r)[y] == if y in xs then 0 else multiset(s)[y]
  {
    if s == [] then []
    else
      assert s == [s[0]] + s[1..];
      if s[0] in xs then Except(s[1..], xs)
      else [s[0]] + Except(s[1..], xs)
  }

  /** Removing one element after another is removing them all at once. */
  lemma {:induction false} ExceptWithout<T>(s: seq<T>, xs: set<T>, x: T)
    ensures Without(Except(s, xs), x) == Except(s, xs + {x})
  {
    if s != [] {
      ExceptWithout(s[1..], xs, x);
    }
  }

  /** Removing `xs` and then `ys` is removing both at once. */
  lemma {:induction false} ExceptUnion<T>(s: seq<T>, xs: set<T>, ys: set<T>)
    ensures Except(Except(s, xs), ys) == Except(s, xs + ys)
  {
    if s != [] {
      ExceptUnion(s[1..], xs, ys);
    }
  }

  /** Removing nothing keeps the sequence. */
  lemma {:induction false} ExceptNone<T>(s: seq<T>)
    ensures Except(s, {}) == s
  {
    if s != [] {
      ExceptNone(s[1..]);
    }
  }

  /** Removing a single element is `Without`. */
  lemma {:induction false} ExceptOne<T>(s: seq<T>, x: T)
    ensures Except(s, {x}) == Without(s, x)
  {
    if s != [] {
      ExceptOne(s[1..], x);
    }
  }

  // ---------------------------------------------------------------------
  // Nodes
  // ---------------------------------------------------------------------

  /** A node's properties together with its place in the tree. */
  datatype NodeState = NodeState(props: Props, parent: Node?, kids: seq<Node>)

  /** The state of each node of `ns`. */
  ghost function States(ns: set<Node>): map<Node, NodeState>
    reads ns
  {
    map n | n in ns :: n.State()
  }

  /** An element. Its text is kept as one string; its element children are
      `kids`, in document order. */
  class Node {
    var tag: string
    var classes: set<string>
    var attrs: map<string, string>
    var text: string
    var parent: Node?
    var kids: seq<Node>
    var listeners: set<Listener>

    function Props(): Props
      reads this
    {
      NodeProps(tag, classes, attrs, text, listeners)
    }

    function State(): NodeState
      reads this
    {
      NodeState(Props(), parent, kids)
    }

    /** `document.createElement(tag)`: a fresh element with no classes,
        attributes, text, listeners or position in the tree. */
    constructor (tag: string)
      ensures Props() == NodeProps(tag, {}, map[], [], {})
      ensures parent == null && kids == []
    {
      this.tag := tag;
      classes := {};
      attrs := map[];
      text := [];
      parent := null;
      kids := [];
      listeners := {};
    }

    /** The `className` setter: the class set becomes the tokens of `className`. */
    method SetClassName(className: string)
      modifies this
      ensures Props() == old(Props()).(classes := ClassSet(className))
      ensures parent == old(parent) && kids == old(kids)
    {
      classes := ClassSet(className);
    }

    /** The `textContent` setter: replaces all children by the text, so every
        element child is detached. */
    method SetTextContent(content: string)
      requires this !in kids
      modifies this, set k | k in kids
      ensures Props() == old(Props()).(text := content)
      ensures parent == old(parent) && kids == []
      ensures forall k :: k in old(kids) ==> k.parent == null && k.Props() == old(k.Props()) && k.kids == old(k.kids)
    {
      forall k | k in kids {
        k.parent := null;
      }
      text := content;
      kids := [];
    }

    /** `setAttribute(name, value)`: the attribute is stored under the
        name in ASCII lowercase. */
    method SetAttribute(name: string, value: string)
      modifies this
      ensures Props() == old(Props()).(attrs := old(attrs)[AsciiLower(name) := value])
      ensures parent == old(parent) && kids == old(kids)
    {
      attrs := attrs[AsciiLower(name) := value];
    }

    /** `removeAttribute(name)`: removes the attribute stored under the
        name in ASCII lowercase, if any. */
    method RemoveAttribute(name: string)
      modifies this
      ensures Props() == old(Props()).(attrs := old(attrs) - {AsciiLower(name)})
      ensures parent == old(parent) && kids == old(kids)
    {
      attrs := attrs - {AsciiLower(name)};
    }

    /** `classList.toggle(token)`: throws for a malformed token, otherwise
        flips its membership. */
    method ToggleClass(token: string) returns (err: Option<DomError>)
      modifies this
      ensures err == TokenError(token)
      ensures Props() == old(Props()).(classes := if err.None? then Toggled(old(classes), token) else old(classes))
      ensures parent == old(parent) && kids == old(kids)
    {
      err := TokenError(token);
      if err.None? {
        classes := Toggled(classes, token);
      }
    }

    /** `classList.add(...tokens)`: throws, adding nothing, when some token is
        malformed; otherwise adds every token. */
    method AddClasses(tokens: seq<string>) returns (err: Option<DomError>)
      modifies this
      ensures err == FirstTokenError(tokens)
      ensures Props() == old(Props()).(classes := if err.None? then old(classes) + set t | t in tokens else old(classes))
      ensures parent == old(parent) && kids == old(kids)
    {
      err := FirstTokenError(tokens);
      if err.None? {
        classes := classes + set t | t in tokens;
      }
    }

    /** `addEventListener`: a null callback is ignored, and so is a listener
        equal to one already registered. */
    method AddEventListener(event: string, callback: Option<int>, capture: bool)
      modifies this
      ensures Props() == old(Props()).(listeners := old(listeners) + Registered(event, callback, capture))
      ensures parent == old(parent) && kids == old(kids)
    {
      if callback.Some? {
        listeners := listeners + {Listener(event, callback.value, capture)};
      }
    }

    /** `removeEventListener`: removes the listener with the same type,
        callback and capture; a null callback matches nothing. */
    method RemoveEventListener(event: string, callback: Option<int>, capture: bool)
      modifies this
      ensures Props() == old(Props()).(listeners := old(listeners) - Registered(event, callback, capture))
      ensures parent == old(parent) && kids == old(kids)
    {
      if callback.Some? {
        listeners := listeners - {Listener(event, callback.value, capture)};
      }
    }

    /** `append(child)`: removes `child` from its current parent, if any, and
        inserts it as the last child of this node (section 4.2.3 of the DOM
        Standard). Appending a node into itself, which the platform rejects
        with a HierarchyRequestError, is excluded by the precondition; the
        other ancestors of this node are not. */
    method Append(child: Node)
      requires child != this && child.parent != child
      modifies this, child, child.parent
      ensures child.parent == this
      ensures kids == (if old(child.parent) == this then Without(old(kids), child) else old(kids)) + [child]
      ensures Props() == old(Props()) && parent == old(parent)
      ensures child.Props() == old(child.Props()) && child.kids == old(child.kids)
      ensures var p := old(child.parent);
        p != null && p != this ==>
          p.kids == Without(old(p.kids), child) && p.Props() == old(p.Props()) && p.parent == old(p.parent)
    {
      var p := child.parent;
      if p != null {
        p.kids := Without(p.kids, child);
      }
      kids := kids + [child];
      child.parent := this;
    }

    /** `remove()`: detaches this node from its parent; a node without a
        parent is left as it is. */
    method Remove()
      requires parent != this
      modifies this, parent
      ensures parent == null
      ensures Props() == old(Props()) && kids == old(kids)
      ensures var p := old(parent);
        p != null ==> p.kids == Without(old(p.kids), this) && p.Props() == old(p.Props()) && p.parent == old(p.parent)
    {
      var p := parent;
      if p != null {
        p.kids := Without(p.kids, this);
        parent := null;
      }
    }
  }

  /** The listener `addEventListener(event, callback, capture)` registers. */
  function Registered(event: string, callback: Option<int>, capture: bool): (r: set<Listener>)
    ensures forall l <- r :: l.event == event && l.capture == capture && callback == Some(l.callback)
    ensures r != {} <==> callback.Some?
  {
    if callback.Some? then {Listener(event, callback.value, capture)} else {}
  }

  /** Removing a listener right after adding it restores the listener set,
      unless the same listener was registered before. */
  lemma AddThenRemove(listeners: set<Listener>, event: string, callback: Option<int>, capture: bool)
    ensures (listeners + Registered(event, callback, capture)) - Registered(event, callback, capture)
            == listeners - Registered(event, callback, capture)
    ensures callback.Some? && Listener(event, callback.value, capture) !in listeners ==>
            (listeners + Registered(event, callback, capture)) - Registered(event, callback, capture) == listeners
  {
  }

  /** `document.createElement` followed by the configuration `createElement`
      performs (src/create-element.js): tag and text default to `div` and
      the empty string, the classes are added with `classList.add` when there
      are any, and the element is appended to `parent` when one is given. If
      `add` throws, nothing after it happens. */
  method CreateElement(tag: Option<string>, text: Option<string>, parent: Node?, classes: Option<seq<string>>)
    returns (r: Result<Node, DomError>)
    modifies parent
    ensures var tokens := classes.GetOr([]);
      if |tokens| > 0 && FirstTokenError(tokens).Some? then r == Failure(FirstTokenError(tokens).value)
      else r.Success?
    ensures r.Success? ==> fresh(r.value)
    ensures r.Success? ==> r.value.Props() == NodeProps(tag.GetOr("div"), set t | t in classes.GetOr([]), map[], text.GetOr(""), {})
    ensures r.Success? ==> r.value.kids == [] && r.value.parent == parent
    ensures parent != null && r.Success? ==> parent.kids == old(parent.kids) + [r.value]
    ensures parent != null ==> parent.Props() == old(parent.Props()) && parent.parent == old(parent.parent)
    ensures parent != null && r.Failure? ==> parent.kids == old(parent.kids)
  {
    var element := new Node(tag.GetOr("div"));
    element.SetTextContent(text.GetOr(""));
    var tokens := classes.GetOr([]);
    if |tokens| > 0 {
      var err := element.AddClasses(tokens);
      if err.Some? {
        return Failure(err.value);
      }
    }
    if parent != null {
      parent.Append(element);
    }
    return Success(element);
  }
}

=== FILE: wrappers.dfy ===
/** Option and Result, used for the options the components take (a missing
    option is `None`) and for the exceptions the platform raises. */
module Wrappers {

  datatype Option<+T> = None | Some(value: T) {

    /** The value, or `default` when absent: JavaScript's defaulting of an
        option that was not given. */
    function GetOr(default: T): T {
      match this
      case Some(v) => v
      case None => default
    }
  }

  datatype Result<+T, +E> = Success(value: T) | Failure(error: E)
}
